=== FILE: README.md ===
# Daisy message-pump core, modelled in Dafny

Daisy is a Kotlin library that pumps messages out of Amazon SQS queues and into
application handlers. Producer loops poll each configured queue and push the
received messages onto per-producer channels. A sampler fans them into a shared
channel. Worker loops route each message by a type attribute to a handler and carry
out the action the handler asks for: do nothing, delete the message, or make it
invisible for a while.

The model covers the sequential logic of that core.

- **Penalty strategies** (`penalties.dfy`): `NoPenalty`, `FixedDelayPenalty`,
  `BackoffDelayPenalty` and the `makePenalty` factory. A strategy is a value; a
  call is a `Step` giving the next state and the delayer or custom-strategy calls
  it made. `Int` and `Long` wrap-around is written out.
- **Router and processor** (`router.dfy`, `processor.dfy`): `TypeAttributeRouter.route`
  and the decision table of `RoutingWorkProcessor.process`. The processor takes any
  `MessageRouting`, so the `route` call and the handler are abstracted as their
  outcomes; `TypeAttributeRouter` is then one way to supply the route.
- **Queue actions** (`poller.dfy`, `deleter.dfy`, `delayer.dfy`): `QueuePoller.poll`,
  `MessageDeleter.delete` and `MessageDelayer.delay`. The SQS transport call is a
  parameter, `Outcome<T> = Returned(value) | Threw(cause)`. Causes are classed as
  an `SdkException`, a cancellation, another `Exception`, or a non-`Exception`
  throwable. Each call returns the request it sent, how it ended, and the Micrometer
  counters afterwards, a `map` keyed by counter name and `queue` tag.
- **Supervised loop** (`looping.dfy`): both `loopUntilCancelled` overloads. A loop
  is a function of what it observes on each pass (whether `isActive` held, how the
  body ended). It returns how many bodies ran, what `onException` received, and
  why it stopped.
- **Engine wiring** (`engine.dfy`): the producer specs built by `Daisy.run`, the
  channel capacities, the number of sampler and worker loops, `pollToChannel`, and
  a producer loop built from `pollToChannel` and the supervised loop.
- Supporting modules:
  - `kotlin.dfy`: integer widths, wrap-around, `coerceIn`, `Option`, ranges.
  - `time.dfy`: `java.time.Duration` as a count of nanoseconds. `toMillis`
    truncates toward zero; `toSeconds` floors.
  - `effects.dfy`: throwables, outcomes, counters.
  - `sqs.dfy`, `configuration.dfy`, `actions.dfy`: the SDK records, the
    configuration records and the `PostProcessAction` variants.

Points where the code does something easy to misread:

- **Backoff delay.** `applyPenalty` raises 2 to the full `Int` counter, coerces
  the result into `[1, Long.MAX]`, and multiplies by the step without an overflow
  check (`penalty/BackoffDelayPenalty.kt:22-26`). With the default 100 ms
  step the product wraps from counter 57 on: at 57 the delay is
  -4035225266123964416 ms, at some later counters it is negative, 0 or the
  maximum, and from 63 on it is -100 ms; see "Findings". `Penalties.Apply`, and
  everything built on it, emits the corrected, saturating delay
  `Penalties.DelayMs`. The delay as written is `Penalties.AsWrittenDelayMs`, and
  `Penalties.ApplyAgreesWithCodeBelowOverflow` shows the two agree while the
  product fits in a `Long`. The counter itself wraps to negative after
  `Int.MAX_VALUE` applies and is then reset (lines 32-39).
- **One-hour maximum.** A comment at `penalty/BackoffDelayPenalty.kt:8` gives one
  hour as the largest supported maximum. Line 17 enforces it with
  `coerceAtMost(Duration.ofHours(1))`.
- **Visibility timeout clamp.** A comment at `action/MessageDelayer.kt:20` notes
  that SQS allows at most 12 hours of visibility. The code at lines 26-28 clamps
  the timeout only to `[0, Int.MAX_VALUE]` seconds, so a longer delay reaches the
  request unchanged.
- **Delete and delay results.** `MessageDeleter.delete` and `MessageDelayer.delay`
  catch an `SdkException`, build a `Failure`, and discard it: they count the call
  and return `Success`. Any other exception escapes.
- **Penalties in the supervised loop.** `Daisy.kt` passes
  `exceptionPenaltyConfiguration` to `loopUntilCancelled` (lines 122 and 152), but
  neither overload in `utility/CoroutineLooping.kt` declares that parameter. The
  code shown does not say how this penalty is applied; it is not modelled.
- **Penalty method name.** The backoff penalty overrides `applyPenalty` where
  the interface declares `applyAndIncrement`, and `pollToChannel` calls
  `applyPenalty`. The model treats both names as one operation, `Penalties.Apply`.

## Model

| member | source | states |
|---|---|---|
| Kotlin.WrapInt | core/src/main/kotlin/dev/skye/daisy/penalty/BackoffDelayPenalty.kt:33 | `Int` arithmetic wraps: the result is in the `Int` range, congruent to the exact value modulo 2^32, and equal to it when it fits |
| Kotlin.WrapLong | core/src/main/kotlin/dev/skye/daisy/penalty/BackoffDelayPenalty.kt:25 | `Long` multiplication wraps: the result is in the `Long` range, congruent modulo 2^64, and exact when it fits |
| Kotlin.InclusiveRange | core/src/main/kotlin/dev/skye/daisy/utility/CoroutineLooping.kt:18 | `lo..hi` holds `hi - lo + 1` elements (none when `hi < lo`), the i-th being `lo + i` |
| Time.ToMillis | core/src/main/kotlin/dev/skye/daisy/penalty/BackoffDelayPenalty.kt:16-19 | `Duration.toMillis` truncates toward zero: the result is within one millisecond of the exact quotient, on the side of zero |
| Time.ToSeconds | core/src/main/kotlin/dev/skye/daisy/action/MessageDelayer.kt:26 | `Duration.toSeconds` floors: `s` seconds is at most the duration and less than `s + 1` seconds |
| Time.ToMillisMonotonic | core/src/main/kotlin/dev/skye/daisy/penalty/BackoffDelayPenalty.kt:16-18 | a longer duration never converts to fewer milliseconds |
| Effects.Increment | core/src/main/kotlin/dev/skye/daisy/utility/MeterCounters.kt:7-56 | `counter.increment(n)` raises exactly the named counter by `n` and registers it; every other counter reads the same |
| Penalties.Multiplier | core/src/main/kotlin/dev/skye/daisy/penalty/BackoffDelayPenalty.kt:22-24 | the multiplier is 2^counter for counters 1 to 62. It saturates at `Long.MAX_VALUE` for counters above 62 and at 1 for counters of 0 or below |
| Penalties.MultiplierMonotonic | core/src/main/kotlin/dev/skye/daisy/penalty/BackoffDelayPenalty.kt:22-24 | a larger counter never gives a smaller multiplier |
| Penalties.AsWrittenDelayMs | core/src/main/kotlin/dev/skye/daisy/penalty/BackoffDelayPenalty.kt:22-26 | the delay as the code computes it never exceeds the maximum and stays a `Long` |
| Penalties.ApplyAgreesWithCodeBelowOverflow | core/src/main/kotlin/dev/skye/daisy/penalty/BackoffDelayPenalty.kt:21-29 | while `step * multiplier` fits in a `Long`, the delay a backoff apply emits is the one the code computes |
| Penalties.AsWrittenAgreesBelowOverflow | core/src/main/kotlin/dev/skye/daisy/penalty/BackoffDelayPenalty.kt:22-26 | while `step * multiplier` fits in a `Long` the code's delay and the corrected one are equal |
| Penalties.AsWrittenNonNegative | core/src/main/kotlin/dev/skye/daisy/penalty/BackoffDelayPenalty.kt:22-26 | with a non-negative step and maximum and no overflow of the product, the code's delay is non-negative |
| Penalties.AsWrittenMonotonic | core/src/main/kotlin/dev/skye/daisy/penalty/BackoffDelayPenalty.kt:22-26 | while the product does not overflow, the code's delay does not decrease as the counter grows |
| Penalties.AsWrittenDelayGoesNegative | core/src/main/kotlin/dev/skye/daisy/penalty/BackoffDelayPenalty.kt:22-26 | with the default 100 ms step and a one-minute maximum, the code's delay at counter 57 is -4035225266123964416 where the corrected one is the maximum, and at every counter from 63 on it is -100 |
| Penalties.DelayMs | core/src/main/kotlin/dev/skye/daisy/penalty/BackoffDelayPenalty.kt:22-26 | the corrected delay is at most the maximum and never negative; it is `min(step * 2^c, max)` for counters 0 to 62, and the maximum itself beyond |
| Penalties.DelayMsMonotonic | core/src/main/kotlin/dev/skye/daisy/penalty/BackoffDelayPenalty.kt:22-26 | the corrected delay never decreases as the counter grows |
| Penalties.IncreaseCounter | core/src/main/kotlin/dev/skye/daisy/penalty/BackoffDelayPenalty.kt:32-39 | the counter goes up by one, and when `incrementAndGet` wraps past `Int.MAX_VALUE` it is reset to 0; it always stays in `[0, Int.MAX_VALUE]` |
| Penalties.NewBackoff | core/src/main/kotlin/dev/skye/daisy/penalty/BackoffDelayPenalty.kt:9-19 | a new backoff starts at counter 0; its maximum is the configured one in milliseconds, capped at one hour; its step is the step in milliseconds |
| Penalties.CappedMillis | core/src/main/kotlin/dev/skye/daisy/penalty/BackoffDelayPenalty.kt:16-18 | capping a duration at one hour and then taking milliseconds equals taking milliseconds and capping at 3600000 |
| Penalties.Apply | core/src/main/kotlin/dev/skye/daisy/penalty/BackoffDelayPenalty.kt:21-30 | one apply call. No penalty: does nothing. Fixed: calls the delayer with its milliseconds iff the duration is non-zero. Backoff: calls the delayer once with the delay for the counter read before the increment, never above the maximum, then advances the counter. Custom: forwards the call. Only a backoff changes state. Uses the corrected delay |
| Penalties.Reset | core/src/main/kotlin/dev/skye/daisy/penalty/BackoffDelayPenalty.kt:41-43 | a backoff's counter returns to 0 without a delay; a custom strategy gets the call; the other strategies do nothing |
| Penalties.MakePenalty | core/src/main/kotlin/dev/skye/daisy/penalty/PenaltyStrategy.kt:11-17 | each configuration maps to its strategy. A backoff gets the default 100 ms step, counter 0 and a maximum capped at one hour. A custom configuration yields the configured strategy itself |
| Penalties.BackoffAppliesClosedForm | core/src/main/kotlin/dev/skye/daisy/penalty/BackoffDelayPenalty.kt:21-39 | k applies on a backoff emit, in order, the delays for counters c, c+1, …, c+k-1, and leave the counter at c+k (corrected delay) |
| Penalties.BackoffRunBounded | core/src/main/kotlin/dev/skye/daisy/penalty/BackoffDelayPenalty.kt:26 | under any sequence of applies and resets, every delay a backoff emits is at most its maximum (corrected delay) |
| Penalties.BackoffDelaysNonDecreasing | core/src/main/kotlin/dev/skye/daisy/penalty/BackoffDelayPenalty.kt:21-30 | between resets, a later delay is never shorter than an earlier one (corrected delay) |
| Penalties.BackoffResetRestarts | core/src/main/kotlin/dev/skye/daisy/penalty/BackoffDelayPenalty.kt:41-43 | after a reset, the next apply emits the first step again |
| Penalties.RunAppend | core/src/main/kotlin/dev/skye/daisy/penalty/PenaltyStrategy.kt:5-9 | running two call sequences one after the other is the same as running their concatenation |
| Penalties.BackoffSixCalls | core/src/test/kotlin/dev/skye/daisy/penalty/BackoffDelayPenaltyTests.kt:10-27 | with step 100 ms and maximum 2 s, six applies emit 100, 200, 400, 800, 1600, 2000 |
| Penalties.BackoffResetSequence | core/src/test/kotlin/dev/skye/daisy/penalty/BackoffDelayPenaltyTests.kt:29-49 | three applies, a reset and three applies emit 100, 200, 400, 100, 200, 400 |
| Penalties.FixedRun | core/src/main/kotlin/dev/skye/daisy/penalty/FixedDelayPenalty.kt:11-20 | a fixed penalty never changes state; any call sequence emits its milliseconds once per apply, or nothing when the duration is zero |
| Penalties.FixedDependsOnlyOnApplyCount | core/src/main/kotlin/dev/skye/daisy/penalty/FixedDelayPenalty.kt:11-20 | two call sequences with the same number of applies have the same effect on a fixed penalty, wherever the resets fall |
| Penalties.FixedThreeCalls | core/src/test/kotlin/dev/skye/daisy/penalty/FixedDelayPenaltyTests.kt:10-47 | three applies of a 100 ms fixed penalty emit 100, 100, 100, with or without a reset after the first |
| Penalties.FixedSubMillisecondCallsDelayer | core/src/main/kotlin/dev/skye/daisy/penalty/FixedDelayPenalty.kt:11-17 | the zero test is on the duration: half a millisecond still calls the delayer, with 0 |
| Penalties.NoPenaltyRun | core/src/main/kotlin/dev/skye/daisy/penalty/NoPenalty.kt:3-10 | any call sequence on `NoPenalty` has no effect |
| Penalties.CustomRun | core/src/main/kotlin/dev/skye/daisy/penalty/PenaltyStrategy.kt:16 | a custom strategy receives every apply and reset, in order, and nothing else happens |
| Router.DefaultRouterUsesMessageType | core/src/main/kotlin/dev/skye/daisy/router/TypeAttributeRouter.kt:7-31 | a router built with the default attribute routes on `daisy_message_type`: no handler without a string value for it, none for an unregistered value, and the registered handler otherwise |
| Router.Route | core/src/main/kotlin/dev/skye/daisy/router/TypeAttributeRouter.kt:18-32 | a handler is chosen iff the attribute is present with a string value that is registered; the chosen handler is the one registered for that value |
| Router.RouteDependsOnlyOnTypeValue | core/src/main/kotlin/dev/skye/daisy/router/TypeAttributeRouter.kt:19-31 | messages with the same type value are routed alike |
| Router.RouteIgnoresOtherFields | core/src/main/kotlin/dev/skye/daisy/router/TypeAttributeRouter.kt:19 | changing the body, the receipt handle or another attribute does not change the route |
| Poller.Poll | core/src/main/kotlin/dev/skye/daisy/poller/QueuePoller.kt:21-41 | the request asks for all attributes, batch size and wait time. A response is returned as `Success` after the polled counter rises by its size, nothing else changing. An `SdkException` becomes `Failure` with no counter touched. Any other exception escapes |
| Poller.PolledCounterTotals | core/src/main/kotlin/dev/skye/daisy/poller/QueuePoller.kt:36-39 | over any sequence of polls, the polled counter rises by exactly the number of messages received |
| Deleter.Delete | core/src/main/kotlin/dev/skye/daisy/action/MessageDeleter.kt:19-38 | deletes by queue and receipt handle. Returns iff the transport returned or raised an `SdkException`, and then always with `Success`, the deleted counter up by one and nothing else changed. Any other exception escapes with the counters untouched |
| Deleter.DeleteCountsEveryCall | core/src/main/kotlin/dev/skye/daisy/action/MessageDeleter.kt:28-37 | over calls whose transport raises nothing but `SdkException`, the deleted counter grows by the number of calls, failed deletions included |
| Delayer.VisibilityTimeoutSeconds | core/src/main/kotlin/dev/skye/daisy/action/MessageDelayer.kt:26-28 | the timeout is the whole seconds of the delay, 0 for a negative delay, `Int.MAX_VALUE` beyond that; there is no 12-hour cap |
| Delayer.VisibilityTimeoutMonotonic | core/src/main/kotlin/dev/skye/daisy/action/MessageDelayer.kt:26-28 | a longer delay never gives a shorter timeout |
| Delayer.VisibilityTimeoutOfWholeSeconds | core/src/main/kotlin/dev/skye/daisy/action/MessageDelayer.kt:26-28 | any whole number of seconds that fits in an `Int` is sent unchanged |
| Delayer.VisibilityTimeoutExamples | core/src/main/kotlin/dev/skye/daisy/action/MessageDelayer.kt:20-28 | thirteen hours is sent as 46800 seconds, above the 12-hour maximum noted in the code; a negative delay is sent as 0 |
| Delayer.Delay | core/src/main/kotlin/dev/skye/daisy/action/MessageDelayer.kt:21-45 | sends the clamped timeout for the receipt handle. Returns iff the transport returned or raised an `SdkException`, and then always with `Success` and the delayed counter up by one. Any other exception escapes with the counters untouched |
| Processor.Process | core/src/main/kotlin/dev/skye/daisy/router/RoutingWorkProcessor.kt:25-66 | the full decision table, for any `MessageRouting`. A `route` that throws: the exception propagates with no handler run, no request and no counter change. No route: failed counter +1 and no request. A handler exception propagates with nothing done. `DoNothing`, `Delete` and `RetryLater` make zero, one delete or one visibility request for the message's own queue and receipt handle. On normal completion processed and processed-total each rise by one, plus the action's counter. An escaping transport exception leaves the counters alone |
| Processor.RoutedByTypeAttribute | core/src/main/kotlin/dev/skye/daisy/router/RoutingWorkProcessor.kt:28-35 | with the library's `TypeAttributeRouter`, a work item reaches a handler iff its type value is registered, that handler being the registered one; otherwise only the failed counter rises, by one, and no request is made |
| Processor.ProcessTargetsOwnMessage | core/src/main/kotlin/dev/skye/daisy/router/RoutingWorkProcessor.kt:37-58 | every request processing makes is a delete or a visibility change for the work item's own queue and receipt handle, never a receive |
| Looping.RunLoop | core/src/main/kotlin/dev/skye/daisy/utility/CoroutineLooping.kt:33-46 | the loop runs no more bodies than passes. `onException` receives only non-cancellation `Exception`s. It stops as `Inactive` only at a pass where `isActive` was false |
| Looping.RunLoopCharacterized | core/src/main/kotlin/dev/skye/daisy/utility/CoroutineLooping.kt:33-46 | before the first stopping pass (an inactive check, a cancellation, a non-`Exception`) every body ran and every thrown exception reached `onException`, in order. That pass decides how the loop ended and whether its body ran |
| Looping.NoBodyAfterInactive | core/src/main/kotlin/dev/skye/daisy/utility/CoroutineLooping.kt:33 | once `isActive` reads false, no later body runs |
| Looping.CancellationEndsLoop | core/src/main/kotlin/dev/skye/daisy/utility/CoroutineLooping.kt:36-39 | a cancellation thrown by a body ends the loop after that body, without reaching `onException` |
| Engine.RunStartsEveryLoop | core/src/main/kotlin/dev/skye/daisy/Daisy.kt:98-139 | as meant, on the corrected wiring, `run()` creates one sampler loop, `quantity` worker loops and one producer loop per poller replica, all lazily: none runs before `start()` is called. After the start calls, none is left not started, each runs the supervised loop over its passes, and each producer runs as the producer loop over its polls |
| Engine.RunStartsEveryLoopAsWritten | core/src/main/kotlin/dev/skye/daisy/Daisy.kt:98-139 | as written, two sampler loops, `quantity + 1` worker loops (none for a negative quantity) and one producer more per queue are created, and every one of them is started |
| Looping.LaunchAsWritten | core/src/main/kotlin/dev/skye/daisy/utility/CoroutineLooping.kt:11-21 | the count overload as written launches `count + 1` loops for any non-negative count |
| Looping.Launch | core/src/main/kotlin/dev/skye/daisy/utility/CoroutineLooping.kt:11-21 | the count overload as meant launches exactly `count` loops (none for a negative count) |
| Looping.LaunchOffByOne | core/src/main/kotlin/dev/skye/daisy/utility/CoroutineLooping.kt:18 | as written, one loop more than asked for is launched; `count = 1` gives two |
| Engine.ReplicaSpec | core/src/main/kotlin/dev/skye/daisy/Daisy.kt:60-72 | each producer polls its queue with its batch size. The wait is `toSeconds().toInt()`: the whole seconds themselves (negative ones included) when they fit in an `Int`, otherwise the `Int` congruent to them modulo 2^32. Its penalty is `makePenalty()` of the queue's configuration: a fresh backoff at counter 0, or the shared custom strategy |
| Engine.WaitTimeTruncates | core/src/main/kotlin/dev/skye/daisy/Daisy.kt:62 | a wait of 2^32 seconds reaches the receive request as 0 |
| Engine.QueueSpecsAsWritten | core/src/main/kotlin/dev/skye/daisy/Daisy.kt:58-73 | as written, a queue gets one producer more than `max(pollerCount, 1)` |
| Engine.QueueSpecs | core/src/main/kotlin/dev/skye/daisy/Daisy.kt:58-73 | as meant, a queue gets `max(pollerCount, 1)` identical producers |
| Engine.ProducerSpecsAsWritten | core/src/main/kotlin/dev/skye/daisy/Daisy.kt:56-75 | as written, the producer list has `sum max(pollerCount, 1)` plus one per queue entries |
| Engine.ProducerSpecsAsWrittenAt | core/src/main/kotlin/dev/skye/daisy/Daisy.kt:56-75 | as written, queue j owns `max(pollerCount, 1) + 1` consecutive producers built from it, after those of the earlier queues, each of which also has its extra one |
| Engine.ProducerSpecs | core/src/main/kotlin/dev/skye/daisy/Daisy.kt:56-75 | as meant, the producer list has `sum max(pollerCount, 1)` entries |
| Engine.ProducerSpecsAt | core/src/main/kotlin/dev/skye/daisy/Daisy.kt:56-75 | as meant, queue j owns `max(pollerCount, 1)` consecutive producers built from it, right after those of queues 0 to j-1, in configuration order |
| Engine.ProducersComeFromQueues | core/src/main/kotlin/dev/skye/daisy/Daisy.kt:56-75 | every producer was built from some configured queue |
| Engine.PollerCountOffByOne | core/src/main/kotlin/dev/skye/daisy/Daisy.kt:58-59 | a queue with the default `pollerCount = 1` gets two pollers as written and one as meant |
| Engine.WiringChannelCapacity | core/src/main/kotlin/dev/skye/daisy/Daisy.kt:150 | the channel of each producer of configured queue j holds one batch of that queue (`batchSize`) |
| Engine.WiringAsWritten | core/src/main/kotlin/dev/skye/daisy/Daisy.kt:56-140 | as written, `run()` builds one extra producer per queue, two sampler loops and `quantity + 1` worker loops |
| Engine.Wiring | core/src/main/kotlin/dev/skye/daisy/Daisy.kt:56-140 | as meant, `run()` builds `sum max(pollerCount, 1)` producers, one channel per producer sized to its batch, one sampler loop and `quantity` worker loops |
| Engine.PollToChannel | core/src/main/kotlin/dev/skye/daisy/Daisy.kt:164-192 | a failed poll is thrown, with no penalty call and nothing sent. An empty batch applies the empty-poll penalty once. A non-empty batch resets it and sends every message, in order, tagged with the poller's queue. The penalty calls made account for the penalty's new state and events (corrected delay) |
| Engine.RunProducer | core/src/main/kotlin/dev/skye/daisy/Daisy.kt:146-162 | the producer loop is the supervised loop whose passes throw exactly when the transport did, and it runs no more polls than passes |
| Engine.PollToChannelLoopOutcome | core/src/main/kotlin/dev/skye/daisy/Daisy.kt:151-192 | a pass of the producer loop throws exactly when, and with the cause with which, its `pollToChannel` step does |
| Engine.ProducerHandsFailuresToOnException | core/src/main/kotlin/dev/skye/daisy/Daisy.kt:151-160 | up to the first pass that stops the producer loop, every failed poll's cause reaches `onException` in order; a stopping failed poll ends the loop, quietly for a cancellation and by escaping for any other non-`Exception` cause |
| Engine.PollEachSendsEverything | core/src/main/kotlin/dev/skye/daisy/Daisy.kt:164-192 | over any sequence of polls, the messages sent are exactly the messages received, in order, with none dropped or duplicated, all tagged with the producer's queue |
| Engine.PollEachCountsEverything | core/src/main/kotlin/dev/skye/daisy/Daisy.kt:164-192 | over any sequence of polls, the polled counter rises by exactly the number of messages sent |
| Engine.PollEachPenaltyConsistent | core/src/main/kotlin/dev/skye/daisy/Daisy.kt:179-183 | the empty-poll penalty's state after any sequence of polls is the result of the apply and reset calls the producer made, in order (corrected delay) |
| Engine.ProducerForwardsEveryPolledMessage | core/src/main/kotlin/dev/skye/daisy/Daisy.kt:151-160 | the producer loop sends exactly the messages of the polls it ran, in order, all tagged with its queue |

## Left out

- Coroutines, channels, suspension and backpressure are not modelled. A send onto
  a producer channel is recorded as the work item sent; a full channel blocking
  the producer is not represented.
- The sampler (`RandomWorkSampler`) and the shared work channel are left out. The
  sampler makes a random choice among ready channels, and neither randomness nor
  readiness is modelled.
- The worker loop is not modelled as a loop. One pass of it is `Processor.Process`
  on one work item. The loop discipline it runs under is `Looping.RunLoop`.
- Cancelling the engine's scope from the sampler's `onException` is left out,
  together with the sampler.
- Penalties applied by the supervised loop are not modelled. `loopUntilCancelled`
  as shown has no penalty parameter, and the argument `Daisy.kt` passes to it is not
  declared there, so the code does not say when that penalty is applied.
- Looping.RunLoop: an `onException` handler that itself throws is not modelled.
  Neither is `yield()` after each pass. Cancellation is only observed at the
  `isActive` check or as an exception thrown by the body.
- Penalties.Apply: the backoff delay it emits is the corrected, saturating one. It equals
  the code's only while `step * 2^counter` fits in a `Long`
  (`Penalties.AsWrittenAgreesBelowOverflow`, `Penalties.ApplyAgreesWithCodeBelowOverflow`).
  Beyond that the code's delay wraps; see "Findings". `Penalties.Run`, the backoff
  run lemmas and `Engine.PollToChannel` inherit the corrected delay.
- Penalties.Apply: cancellation during `delay` is not modelled. The event records
  the delayer call. The counter has already advanced when the delay begins.
- Engine.PollToChannel: a custom strategy's `applyPenalty` or `reset` is assumed to
  return normally. If it throws, the code (`Daisy.kt:179-191`) has already counted
  the poll and sends nothing of the batch; the strategy's behaviour is not modelled.
- Engine.PollToChannel: a cancellation while `pollToChannel` is suspended, in a
  `channel.send` or in the empty-poll penalty's delay, is not modelled. In the code
  it ends the step after the poll was counted, and the rest of the batch is not
  sent (`Daisy.kt:179-191`).
- Time.ToMillis: `Duration.toMillis` throws `ArithmeticException` when the
  milliseconds do not fit in a `Long`. The model's `Duration` excludes such
  durations instead of modelling the exception.
- `Double.pow` is modelled by its exact values. Every power of two up to 2^62 is
  exact in a double. From 2^63 on, the coercion and the saturating `toLong()` give
  `Long.MAX_VALUE`. A negative exponent gives a fraction that the coercion lifts
  to 1.
- Logging is not modelled. Micrometer counters are modelled as natural numbers
  rather than doubles.
- The AWS SDK is not modelled. Only the request fields the code sets and the
  outcome of the awaited future are kept.
- The handler (`MessageProcessing.process`) is external code and appears only
  through the outcome of its one call.
- The identity of a custom `PenaltyStrategy` object is a number. Its behaviour is
  unknown and appears only as the calls it receives.
- The older root-package API (`QueuePoller.kt`, `MessageDeleter.kt` and so on
  directly under `dev/skye/daisy`), the Ktor feature and the demos are not part of
  this model.

## Findings

| source | as written | input that shows it | evidently intended | confidence | as-written member | corrected member |
|---|---|---|---|---|---|---|
| core/src/main/kotlin/dev/skye/daisy/penalty/BackoffDelayPenalty.kt:22-26 | `stepMs * multiplier` is an unchecked `Long` product, so it wraps before `Long.min` caps it at the maximum | the default 100 ms step with the default one-minute maximum: at counter 57 the delay is -4035225266123964416 ms, and from counter 63 on it is -100 ms | the delay grows to the maximum and stays there | not executed | Penalties.AsWrittenDelayMs, Penalties.AsWrittenDelayGoesNegative | Penalties.DelayMs, Penalties.Apply |
| core/src/main/kotlin/dev/skye/daisy/utility/CoroutineLooping.kt:18 | `(0..count)` is an inclusive range, so `count + 1` loops are launched | `count = 1` for the sampler launches two sampler loops | exactly `count` loops (`0 until count`) | not executed | Looping.LaunchAsWritten, Looping.LaunchOffByOne | Looping.Launch, Engine.Wiring |
| core/src/main/kotlin/dev/skye/daisy/Daisy.kt:58-59 | `(0..pollerCount)` is an inclusive range, so every queue gets one poller more than configured | a queue with the default `pollerCount = 1` gets two pollers | `max(pollerCount, 1)` pollers per queue | not executed | Engine.ProducerSpecsAsWritten, Engine.PollerCountOffByOne | Engine.ProducerSpecs, Engine.Wiring |

=== FILE: actions.dfy ===
/** What a handler asks for after processing a message (action/PostProcessAction.kt). */
module Actions {
  import opened Time

  datatype PostProcessAction =
    | DoNothing            // leave the message to the queue's own redrive policy
    | RetryLater(after: Duration)  // hide the message for `after`, then let it be received again
    | Delete               // remove the message from the queue
}

=== FILE: configuration.dfy ===
/** The configuration surface of the engine (DaisyConfiguration.kt). The dispatcher,
    the transport client, the meter registry and the router object are left out:
    they are capabilities, not data the wiring computes with. */
module Configuration {
  import opened Time

  /** The identity of a caller-supplied `PenaltyStrategy` object. Two equal ids are
      one and the same object, with one shared internal state. */
  type StrategyId = nat

  datatype PenaltyConfiguration =
    | BackoffDelay(maxDuration: Duration)
    | FixedDelay(duration: Duration)
    | Custom(strategy: StrategyId)
    | NoPenalty

  datatype DaisyQueue = DaisyQueue(
    url: string,
    waitDuration: Duration,
    batchSize: int,
    emptyPollPenalty: PenaltyConfiguration,
    pollerCount: int)

  const DefaultPollerCount: int := 1

  datatype DaisyProcessingConfiguration = DaisyProcessingConfiguration(quantity: int)

  datatype DaisyPenaltiesConfiguration = DaisyPenaltiesConfiguration(
    pollException: PenaltyConfiguration,
    processingException: PenaltyConfiguration)

  datatype DaisyConfiguration = DaisyConfiguration(
    queues: seq<DaisyQueue>,
    processing: DaisyProcessingConfiguration,
    penalties: DaisyPenaltiesConfiguration)
}

=== FILE: delayer.dfy ===
/** Making a message invisible for a while (action/MessageDelaying.kt,
    action/MessageDelayer.kt). The transport call is abstracted as its outcome. */
module Delayer {
  import opened Kotlin
  import opened Time
  import opened Effects
  import opened Sqs

  datatype DelayResult = Failure(cause: Cause) | Success

  /** The request sent, how `delay` ended, and the counters afterwards. */
  datatype DelayStep = DelayStep(request: ChangeMessageVisibilityRequest, outcome: Outcome<DelayResult>, counters: Counters)

  /** The visibility timeout sent for a requested delay: its whole seconds, coerced
      into `[0, Int.MAX_VALUE]`. No twelve-hour limit is applied here. */
  function VisibilityTimeoutSeconds(duration: Duration): (seconds: int)
    ensures 0 <= seconds <= IntMax
    ensures ToSeconds(duration) < 0 ==> seconds == 0
    ensures 0 <= ToSeconds(duration) <= IntMax ==> seconds == ToSeconds(duration)
    ensures IntMax < ToSeconds(duration) ==> seconds == IntMax
  {
    CoerceIn(ToSeconds(duration), 0, IntMax)
  }

  /** A longer requested delay never gives a shorter timeout. */
  lemma VisibilityTimeoutMonotonic(a: Duration, b: Duration)
    requires a <= b
    ensures VisibilityTimeoutSeconds(a) <= VisibilityTimeoutSeconds(b)
  {
    assert ToSeconds(a) <= ToSeconds(b);
  }

  /** Whole seconds that fit in an `Int` pass through unchanged, far beyond the
      twelve hours the queue accepts. */
  lemma VisibilityTimeoutOfWholeSeconds(s: int)
    requires 0 <= s <= IntMax
    ensures VisibilityTimeoutSeconds(OfSeconds(s)) == s
  {
  }

  /** Thirteen hours is sent as 46800 seconds, and a negative delay as zero. */
  lemma VisibilityTimeoutExamples()
    ensures VisibilityTimeoutSeconds(OfSeconds(13 * 3600)) == 46_800
    ensures VisibilityTimeoutSeconds(OfMillis(-1)) == 0
  {
  }

  /** `MessageDelayer.delay`. As in the deleter, the `Failure` built from an
      `SdkException` is discarded: the delay is counted and `Success` returned.
      Any other exception escapes before the counter is touched. */
  function Delay(queueUrl: string, receiptHandle: string, duration: Duration,
                 transport: Outcome<()>, counters: Counters): (r: DelayStep)
    ensures r.request.queueUrl == queueUrl && r.request.receiptHandle == receiptHandle
    ensures r.request.visibilityTimeout == VisibilityTimeoutSeconds(duration)
    ensures r.outcome.Returned? <==> Tolerated(transport)
    ensures r.outcome.Returned? ==>
              && r.outcome.value == Success
              && Count(r.counters, Delayed(queueUrl)) == Count(counters, Delayed(queueUrl)) + 1
              && UnchangedExcept(counters, r.counters, {Delayed(queueUrl)})
    ensures r.outcome.Threw? ==> r.outcome.cause == transport.cause && r.counters == counters
  {
    var request := ChangeMessageVisibilityRequest(queueUrl, receiptHandle, VisibilityTimeoutSeconds(duration));
    if !Tolerated(transport) then
      DelayStep(request, Threw(transport.cause), counters)
    else
      DelayStep(request, Returned(Success), Increment(counters, Delayed(queueUrl), 1))
  }
}

=== FILE: deleter.dfy ===
/** Deleting a message from its queue (action/MessageDeleting.kt, action/MessageDeleter.kt).
    The transport call is abstracted as its outcome `transport`. */
module Deleter {
  import opened Kotlin
  import opened Effects
  import opened Sqs

  datatype DeleteResult = Failure(cause: Cause) | Success

  /** The request sent, how `delete` ended, and the counters afterwards. */
  datatype DeleteStep = DeleteStep(request: DeleteMessageRequest, outcome: Outcome<DeleteResult>, counters: Counters)

  /** `MessageDeleter.delete`. An `SdkException` from the transport is caught and a
      `Failure` is built from it, but that value is discarded: the function goes on
      to count the deletion and returns `Success`. Any other exception escapes
      before the counter is touched. */
  function Delete(queueUrl: string, receiptHandle: string, transport: Outcome<()>, counters: Counters): (r: DeleteStep)
    ensures r.request == DeleteMessageRequest(queueUrl, receiptHandle)
    ensures r.outcome.Returned? <==> Tolerated(transport)
    ensures r.outcome.Returned? ==>
              && r.outcome.value == Success
              && Count(r.counters, Deleted(queueUrl)) == Count(counters, Deleted(queueUrl)) + 1
              && UnchangedExcept(counters, r.counters, {Deleted(queueUrl)})
    ensures r.outcome.Threw? ==> r.outcome.cause == transport.cause && r.counters == counters
  {
    var request := DeleteMessageRequest(queueUrl, receiptHandle);
    if !Tolerated(transport) then
      DeleteStep(request, Threw(transport.cause), counters)
    else
      DeleteStep(request, Returned(Success), Increment(counters, Deleted(queueUrl), 1))
  }

  /** Over any number of calls whose transport never throws anything but an
      `SdkException`, the deleted counter grows by exactly the number of calls,
      the calls whose transport failed included. */
  lemma {:induction false} DeleteCountsEveryCall(queueUrl: string, receiptHandles: seq<string>,
                                                 transports: seq<Outcome<()>>, counters: Counters)
    requires |transports| == |receiptHandles|
    requires forall i :: 0 <= i < |transports| ==> Tolerated(transports[i])
    ensures Count(DeleteAll(queueUrl, receiptHandles, transports, counters), Deleted(queueUrl))
              == Count(counters, Deleted(queueUrl)) + |receiptHandles|
    decreases |receiptHandles|
  {
    if |receiptHandles| > 0 {
      var step := Delete(queueUrl, receiptHandles[0], transports[0], counters);
      DeleteCountsEveryCall(queueUrl, receiptHandles[1..], transports[1..], step.counters);
    }
  }

  /** The counters after a sequence of deletions on one queue. */
  function DeleteAll(queueUrl: string, receiptHandles: seq<string>, transports: seq<Outcome<()>>, counters: Counters): Counters
    requires |transports| == |receiptHandles|
    decreases |receiptHandles|
  {
    if |receiptHandles| == 0 then counters
    else DeleteAll(queueUrl, receiptHandles[1..], transports[1..],
                   Delete(queueUrl, receiptHandles[0], transports[0], counters).counters)
  }
}

=== FILE: effects.dfy ===
/** What an operation can do besides computing a value: end by throwing, and bump
    named counters in the meter registry. */
module Effects {
  import opened Kotlin

  /** The classes of throwable the code distinguishes. `Sdk` is the AWS SDK's
      `SdkException`; `Cancellation` is coroutine cancellation; `OtherException` is
      any other `Exception`; `NonException` is a `Throwable` that is not an
      `Exception` (a `java.lang.Error`). */
  datatype CauseKind = Sdk | Cancellation | OtherException | NonException

  /** One thrown object; `id` stands for its identity. */
  datatype Cause = Cause(kind: CauseKind, id: nat)

  /** Caught by a Kotlin `catch (exception: Exception)`. */
  predicate IsException(c: Cause) { c.kind != NonException }

  /** How a call ends: it returns a value or throws. Used both for calls into the
      queue transport (the awaited SDK future) and for the engine's own functions. */
  datatype Outcome<+T> = Returned(value: T) | Threw(cause: Cause)

  /** A transport call the action wrappers get past: it returned, or it raised an
      `SdkException`, which they catch. */
  predicate Tolerated<T>(transport: Outcome<T>)
  {
    transport.Returned? || transport.cause.kind == Sdk
  }

  /** A Micrometer counter is identified by its name and its tags; every counter of
      the engine has either no tag or one `queue` tag. */
  datatype CounterKey = CounterKey(name: string, queue: Option<string>)

  function Polled(queue: string): CounterKey { CounterKey("messages.polled", Some(queue)) }
  function Processed(queue: string): CounterKey { CounterKey("messages.processed", Some(queue)) }
  const ProcessedTotal: CounterKey := CounterKey("messages.processed.total", None)
  function Deleted(queue: string): CounterKey { CounterKey("messages.deleted", Some(queue)) }
  function Delayed(queue: string): CounterKey { CounterKey("messages.delayed", Some(queue)) }
  function Failed(queue: string): CounterKey { CounterKey("messages.failed", Some(queue)) }

  /** The meter registry: the current value of every counter touched so far. */
  type Counters = map<CounterKey, nat>

  /** A counter never touched reads as zero. */
  function Count(c: Counters, k: CounterKey): nat
  {
    if k in c then c[k] else 0
  }

  /** `counter.increment(n)`; incrementing by zero still registers the counter. */
  function Increment(c: Counters, k: CounterKey, n: nat): (r: Counters)
    ensures k in r
    ensures Count(r, k) == Count(c, k) + n
    ensures forall k' :: k' != k ==> Count(r, k') == Count(c, k')
  {
    c[k := Count(c, k) + n]
  }

  /** Every counter outside `touched` reads the same in `before` and `after`. */
  ghost predicate UnchangedExcept(before: Counters, after: Counters, touched: set<CounterKey>)
  {
    forall k :: k !in touched ==> Count(after, k) == Count(before, k)
  }
}

=== FILE: engine.dfy ===
/** The engine's sequential parts (Daisy.kt): building one producer per poller
    replica, the producer step `pollToChannel`, and a producer loop run under the
    supervised-loop discipline. Channels, the sampler and the coroutine scope are
    not modelled; a send onto a producer channel is recorded as the work item sent. */
module Engine {
  import opened Kotlin
  import opened Time
  import opened Effects
  import opened Sqs
  import opened Configuration
  import opened Penalties
  import opened Poller
  import Looping

  datatype ProducerSpec = ProducerSpec(queueUrl: string, poller: QueuePoller, emptyPollPenalty: Strategy)

  /** The producer built for one poller replica of a configured queue. The wait time
      is `waitDuration.toSeconds().toInt()`, whose `toInt()` keeps the low 32 bits;
      the empty-poll penalty is a `makePenalty()` call of the replica's own, which for
      a `Custom` configuration returns the one configured object, so all replicas
      of that queue share it (and its identity, `strategy`). */
  function ReplicaSpec(q: DaisyQueue): (s: ProducerSpec)
    ensures s.queueUrl == q.url && s.poller.queueUrl == q.url
    ensures s.poller.batchSize == q.batchSize
    // `toInt()`: the seconds themselves when they fit in an `Int` (negative ones
    // included), otherwise the `Int` congruent to them modulo 2^32
    ensures IsInt(ToSeconds(q.waitDuration)) ==> s.poller.waitTimeSeconds == ToSeconds(q.waitDuration)
    ensures IsInt(s.poller.waitTimeSeconds)
    ensures (s.poller.waitTimeSeconds - ToSeconds(q.waitDuration)) % 0x1_0000_0000 == 0
    ensures s.emptyPollPenalty == MakePenalty(q.emptyPollPenalty)
    ensures Valid(s.emptyPollPenalty)
    ensures s.emptyPollPenalty.BackoffDelayPenalty? ==> s.emptyPollPenalty.counter == 0
    ensures q.emptyPollPenalty.Custom? ==> s.emptyPollPenalty == CustomPenalty(q.emptyPollPenalty.strategy)
  {
    var poller := QueuePoller(q.batchSize, q.url, WrapInt(ToSeconds(q.waitDuration)));
    ProducerSpec(q.url, poller, MakePenalty(q.emptyPollPenalty))
  }

  /** A wait of 2^32 seconds reaches the receive request as zero. */
  lemma WaitTimeTruncates(q: DaisyQueue)
    requires q.waitDuration == OfSeconds(0x1_0000_0000)
    ensures ReplicaSpec(q).poller.waitTimeSeconds == 0
  {
  }

  /** The number of pollers a queue is meant to get: its `pollerCount`, at least one. */
  function Replicas(q: DaisyQueue): nat
  {
    Max(q.pollerCount, 1)
  }

  function ReplicaTotal(queues: seq<DaisyQueue>): nat
  {
    if |queues| == 0 then 0 else Replicas(queues[0]) + ReplicaTotal(queues[1..])
  }

  /** The producers of the queues before `queues[j]` are those of `queues[0]` followed
      by those of the later queues before it. */
  lemma ReplicaTotalPrefix(queues: seq<DaisyQueue>, j: nat)
    requires 0 < j <= |queues|
    ensures ReplicaTotal(queues[..j]) == Replicas(queues[0]) + ReplicaTotal(queues[1..][..j - 1])
  {
    assert queues[..j][1..] == queues[1..][..j - 1];
  }

  /** The producers built for one queue as written: `pollerCount` is coerced to at
      least one and then `(0..pollerCount).map { ... }` builds one per element of
      the inclusive range, one more than the count. */
  function QueueSpecsAsWritten(q: DaisyQueue): (specs: seq<ProducerSpec>)
    ensures |specs| == Replicas(q) + 1
    ensures forall i :: 0 <= i < |specs| ==> specs[i] == ReplicaSpec(q)
  {
    var replicas := InclusiveRange(0, Max(q.pollerCount, 1));
    seq(|replicas|, _ => ReplicaSpec(q))
  }

  /** The producers evidently meant for one queue: `pollerCount` of them, at least one. */
  function QueueSpecs(q: DaisyQueue): (specs: seq<ProducerSpec>)
    ensures |specs| == Replicas(q)
    ensures forall i :: 0 <= i < |specs| ==> specs[i] == ReplicaSpec(q)
  {
    var replicas := UntilRange(0, Max(q.pollerCount, 1));
    seq(|replicas|, _ => ReplicaSpec(q))
  }

  /** `configuration.queues.map { ... }.flatten()` with the code's inclusive range:
      every queue gets one poller more than it asked for. */
  function ProducerSpecsAsWritten(queues: seq<DaisyQueue>): (specs: seq<ProducerSpec>)
    ensures |specs| == ReplicaTotal(queues) + |queues|
  {
    if |queues| == 0 then [] else QueueSpecsAsWritten(queues[0]) + ProducerSpecsAsWritten(queues[1..])
  }

  /** The producers evidently meant: `Replicas(q)` per configured queue. */
  function ProducerSpecs(queues: seq<DaisyQueue>): (specs: seq<ProducerSpec>)
    ensures |specs| == ReplicaTotal(queues)
  {
    if |queues| == 0 then [] else QueueSpecs(queues[0]) + ProducerSpecs(queues[1..])
  }

  /** In configuration order, queue j owns the Replicas + 1 producers after those of
      queues 0..j-1 (each earlier queue also contributing its extra one). */
  lemma {:induction false} ProducerSpecsAsWrittenAt(queues: seq<DaisyQueue>, j: nat, k: nat)
    requires j < |queues|
    requires ReplicaTotal(queues[..j]) + j <= k <= ReplicaTotal(queues[..j]) + j + Replicas(queues[j])
    ensures k < |ProducerSpecsAsWritten(queues)|
    ensures ProducerSpecsAsWritten(queues)[k] == ReplicaSpec(queues[j])
    decreases j
  {
    var here := QueueSpecsAsWritten(queues[0]);
    assert ProducerSpecsAsWritten(queues) == here + ProducerSpecsAsWritten(queues[1..]);
    if j == 0 {
      assert queues[..j] == [];
    } else {
      ReplicaTotalPrefix(queues, j);
      assert queues[1..][j - 1] == queues[j];
      ProducerSpecsAsWrittenAt(queues[1..], j - 1, k - |here|);
    }
  }

  /** In configuration order, queue j owns the Replicas producers after those of queues 0..j-1. */
  lemma {:induction false} ProducerSpecsAt(queues: seq<DaisyQueue>, j: nat, k: nat)
    requires j < |queues|
    requires ReplicaTotal(queues[..j]) <= k < ReplicaTotal(queues[..j]) + Replicas(queues[j])
    ensures k < |ProducerSpecs(queues)|
    ensures ProducerSpecs(queues)[k] == ReplicaSpec(queues[j])
    decreases j
  {
    var here := QueueSpecs(queues[0]);
    assert ProducerSpecs(queues) == here + ProducerSpecs(queues[1..]);
    if j == 0 {
      assert queues[..j] == [];
    } else {
      ReplicaTotalPrefix(queues, j);
      assert queues[1..][j - 1] == queues[j];
      ProducerSpecsAt(queues[1..], j - 1, k - |here|);
    }
  }

  /** Every producer was built from some configured queue. */
  lemma ProducersComeFromQueues(queues: seq<DaisyQueue>, k: nat)
    requires k < |ProducerSpecs(queues)|
    ensures exists j :: 0 <= j < |queues| && ProducerSpecs(queues)[k] == ReplicaSpec(queues[j])
    decreases |queues|
  {
    var here := QueueSpecs(queues[0]);
    if k >= |here| {
      ProducersComeFromQueues(queues[1..], k - |here|);
      var j :| 0 <= j < |queues[1..]| && ProducerSpecs(queues[1..])[k - |here|] == ReplicaSpec(queues[1..][j]);
      assert ProducerSpecs(queues)[k] == ReplicaSpec(queues[j + 1]);
    } else {
      assert ProducerSpecs(queues)[k] == ReplicaSpec(queues[0]);
    }
  }

  /** The default configuration of one queue (`pollerCount = 1`) gets two pollers as
      written and one as meant. */
  lemma PollerCountOffByOne(q: DaisyQueue)
    requires q.pollerCount == DefaultPollerCount
    ensures |ProducerSpecsAsWritten([q])| == 2
    ensures |ProducerSpecs([q])| == 1
  {
    assert [q][1..] == [];
  }

  /** What `run()` builds, as counts and sizes: the producers, the capacity of
      each producer's channel, and how many sampler and worker loops are launched. */
  datatype Topology = Topology(producers: seq<ProducerSpec>, channelCapacities: seq<int>,
                               samplerLoops: nat, workerLoops: nat)

  /** One channel per producer, with room for one batch of its poller. */
  function ChannelCapacities(producers: seq<ProducerSpec>): (capacities: seq<int>)
    ensures |capacities| == |producers|
    ensures forall i :: 0 <= i < |producers| ==> capacities[i] == producers[i].poller.batchSize
  {
    seq(|producers|, i requires 0 <= i < |producers| => producers[i].poller.batchSize)
  }

  /** `run()` as written: inclusive ranges for the pollers and for the sampler
      (`count = 1`) and worker (`count = quantity`) loops. */
  function WiringAsWritten(config: DaisyConfiguration): (t: Topology)
    ensures |t.producers| == ReplicaTotal(config.queues) + |config.queues|
    ensures t.samplerLoops == 2
    ensures t.workerLoops == if config.processing.quantity < 0 then 0 else config.processing.quantity + 1
  {
    var producers := ProducerSpecsAsWritten(config.queues);
    Topology(producers, ChannelCapacities(producers),
             |Looping.LaunchAsWritten(1)|, |Looping.LaunchAsWritten(config.processing.quantity)|)
  }

  /** `run()` as evidently meant: one poller per requested replica, exactly one
      sampler, `quantity` workers. */
  function Wiring(config: DaisyConfiguration): (t: Topology)
    ensures |t.producers| == ReplicaTotal(config.queues)
    ensures |t.channelCapacities| == |t.producers|
    ensures forall i :: 0 <= i < |t.producers| ==> t.channelCapacities[i] == t.producers[i].poller.batchSize
    ensures t.samplerLoops == 1
    ensures t.workerLoops == Max(config.processing.quantity, 0)
  {
    var producers := ProducerSpecs(config.queues);
    Topology(producers, ChannelCapacities(producers),
             |Looping.Launch(1)|, |Looping.Launch(config.processing.quantity)|)
  }

  // ---------------------------------------------------------------------------
  // The loops `run()` launches

  /** A loop `runCoroutines` launches: one per producer, the sampler loops and the
      worker loops. */
  datatype Job = ProducerJob(index: nat, spec: ProducerSpec) | SamplerJob(index: nat) | WorkerJob(index: nat)

  /** The jobs of a topology, in the order `runCoroutines` starts them: the
      samplers, then the workers, then the producers. */
  function Jobs(t: Topology): (jobs: seq<Job>)
    ensures |jobs| == t.samplerLoops + t.workerLoops + |t.producers|
    ensures forall i :: 0 <= i < t.samplerLoops ==> jobs[i] == SamplerJob(i)
    ensures forall i :: t.samplerLoops <= i < t.samplerLoops + t.workerLoops ==>
              jobs[i] == WorkerJob(i - t.samplerLoops)
    ensures forall i :: t.samplerLoops + t.workerLoops <= i < |jobs| ==>
              jobs[i] == ProducerJob(i - t.samplerLoops - t.workerLoops, t.producers[i - t.samplerLoops - t.workerLoops])
  {
    seq(t.samplerLoops, i requires 0 <= i < t.samplerLoops => SamplerJob(i))
      + seq(t.workerLoops, i requires 0 <= i < t.workerLoops => WorkerJob(i))
      + seq(|t.producers|, i requires 0 <= i < |t.producers| => ProducerJob(i, t.producers[i]))
  }

  /** How the loops of a topology ran. Every `loopUntilCancelled` call leaves `start`
      at its lazy default, so a loop runs only once `start()` has been called on it;
      `passes` gives what each loop observes. */
  function RunJobs(t: Topology, started: bool, passes: Job -> seq<Looping.Iteration>): (traces: seq<Looping.LoopTrace>)
    ensures |traces| == |Jobs(t)|
  {
    var jobs := Jobs(t);
    seq(|jobs|, i requires 0 <= i < |jobs| => Looping.RunJob(Looping.DefaultStart, started, passes(jobs[i])))
  }

  /** As meant, on the corrected wiring, `run()` launches one sampler, `quantity`
      workers and one producer per poller replica. Until `start()` is called none of them runs; once every job is started
      (as `runCoroutines` ends by doing) none is left `NotStarted`, each runs the
      supervised loop over its own passes, and each producer runs as the producer
      loop over its polls. */
  lemma RunStartsEveryLoop(config: DaisyConfiguration, passes: Job -> seq<Looping.Iteration>,
                           producerPasses: nat -> seq<ProducerPass>, counters: Counters)
    requires forall k, spec :: passes(ProducerJob(k, spec)) == LoopView(producerPasses(k))
    ensures var t := Wiring(config);
            && |RunJobs(t, true, passes)| == 1 + Max(config.processing.quantity, 0) + ReplicaTotal(config.queues)
            && (forall i :: 0 <= i < |RunJobs(t, false, passes)| ==>
                  RunJobs(t, false, passes)[i] == Looping.LoopTrace(0, [], Looping.NotStarted))
            && (forall i :: 0 <= i < |RunJobs(t, true, passes)| ==>
                  && RunJobs(t, true, passes)[i].exit != Looping.NotStarted
                  && RunJobs(t, true, passes)[i] == Looping.RunLoop(passes(Jobs(t)[i])))
            && (forall k :: 0 <= k < |t.producers| ==>
                  RunJobs(t, true, passes)[1 + Max(config.processing.quantity, 0) + k]
                    == RunProducer(t.producers[k], producerPasses(k), counters).loop)
  {
    var t := Wiring(config);
    var jobs := Jobs(t);
    var base := t.samplerLoops + t.workerLoops;
    assert base == 1 + Max(config.processing.quantity, 0);
    forall i | 0 <= i < |jobs|
      ensures RunJobs(t, false, passes)[i] == Looping.LoopTrace(0, [], Looping.NotStarted)
      ensures RunJobs(t, true, passes)[i] == Looping.RunLoop(passes(jobs[i]))
    {
    }
    forall k | 0 <= k < |t.producers|
      ensures RunJobs(t, true, passes)[base + k] == RunProducer(t.producers[k], producerPasses(k), counters).loop
    {
      assert jobs[base + k] == ProducerJob(k, t.producers[k]);
    }
  }

  /** As written, `run()` launches two samplers, `quantity + 1` workers and one
      producer more than requested per queue, and starts them all the same. */
  lemma RunStartsEveryLoopAsWritten(config: DaisyConfiguration, passes: Job -> seq<Looping.Iteration>)
    ensures var t := WiringAsWritten(config);
            && |RunJobs(t, true, passes)|
                 == 2 + (if config.processing.quantity < 0 then 0 else config.processing.quantity + 1)
                      + ReplicaTotal(config.queues) + |config.queues|
            && forall i :: 0 <= i < |RunJobs(t, true, passes)| ==> RunJobs(t, true, passes)[i].exit != Looping.NotStarted
  {
  }

  // ---------------------------------------------------------------------------
  // The producer step

  /** The channel of the i-th producer of configured queue j holds one batch of that queue. */
  lemma WiringChannelCapacity(config: DaisyConfiguration, j: nat, i: nat)
    requires j < |config.queues| && i < Replicas(config.queues[j])
    ensures ReplicaTotal(config.queues[..j]) + i < |Wiring(config).channelCapacities|
    ensures Wiring(config).channelCapacities[ReplicaTotal(config.queues[..j]) + i] == config.queues[j].batchSize
  {
    ProducerSpecsAt(config.queues, j, ReplicaTotal(config.queues[..j]) + i);
  }

  /** The producer after one step, the calls it made on its empty-poll penalty and
      what they did, the work items sent to its channel, the counters, and how the
      step ended. */
  datatype ProducerStep = ProducerStep(spec: ProducerSpec, penaltyCalls: seq<Op>, penaltyEvents: seq<Event>,
                                       sent: seq<Work>, counters: Counters, outcome: Outcome<()>)

  function AsWork(queueUrl: string, messages: seq<Message>): seq<Work>
  {
    seq(|messages|, i requires 0 <= i < |messages| => Work(queueUrl, messages[i]))
  }

  function MessagesOf(works: seq<Work>): seq<Message>
  {
    seq(|works|, i requires 0 <= i < |works| => works[i].message)
  }

  /** `pollToChannel`: poll once; a `Failure` is rethrown; an empty batch applies the
      empty-poll penalty; a non-empty one resets it and sends every message, in
      order, as a work item tagged with the poller's queue. */
  function PollToChannel(spec: ProducerSpec, transport: Outcome<seq<Message>>, counters: Counters): (r: ProducerStep)
    ensures r.counters == Poll(spec.poller, transport, counters).counters
    ensures r.spec.queueUrl == spec.queueUrl && r.spec.poller == spec.poller
    ensures Run(spec.emptyPollPenalty, r.penaltyCalls) == Step(r.spec.emptyPollPenalty, r.penaltyEvents)
    ensures r.outcome.Threw? <==> transport.Threw?
    ensures transport.Threw? ==>
              && r.outcome.cause == transport.cause
              && r.penaltyCalls == [] && r.sent == [] && r.spec == spec
    ensures transport.Returned? && |transport.value| == 0 ==> r.penaltyCalls == [ApplyOp] && r.sent == []
    ensures transport.Returned? && |transport.value| > 0 ==>
              && r.penaltyCalls == [ResetOp]
              && MessagesOf(r.sent) == transport.value
              && forall w :: w in r.sent ==> w.queueUrl == spec.poller.queueUrl
  {
    var poll := Poll(spec.poller, transport, counters);
    match poll.outcome
    case Threw(cause) => ProducerStep(spec, [], [], [], poll.counters, Threw(cause))
    case Returned(Failure(cause)) => ProducerStep(spec, [], [], [], poll.counters, Threw(cause))
    case Returned(Success(messages)) =>
      var op := if |messages| == 0 then ApplyOp else ResetOp;
      var step := Perform(spec.emptyPollPenalty, op);
      assert step.events + [] == step.events;
      ProducerStep(spec.(emptyPollPenalty := step.next), [op], step.events,
                   AsWork(spec.poller.queueUrl, messages), poll.counters, Returned(()))
  }

  // ---------------------------------------------------------------------------
  // The producer loop

  /** One pass of a producer loop: whether `isActive` held, and what the transport did. */
  datatype ProducerPass = ProducerPass(active: bool, transport: Outcome<seq<Message>>)

  /** How a producer step ends, as the loop sees it: it throws exactly when the
      transport did, whether the poller turned that into a `Failure` or not. */
  function StepOutcome(transport: Outcome<seq<Message>>): Outcome<()>
  {
    if transport.Threw? then Threw(transport.cause) else Returned(())
  }

  /** A pass of the producer loop ends as its poll-and-send step does. */
  lemma PollToChannelLoopOutcome(spec: ProducerSpec, transport: Outcome<seq<Message>>, counters: Counters)
    ensures PollToChannel(spec, transport, counters).outcome == StepOutcome(transport)
  { }

  function LoopView(passes: seq<ProducerPass>): (its: seq<Looping.Iteration>)
    ensures |its| == |passes|
  {
    seq(|passes|, i requires 0 <= i < |passes| => Looping.Iteration(passes[i].active, StepOutcome(passes[i].transport)))
  }

  /** The combined effect of running `pollToChannel` once per transport outcome. */
  datatype Produced = Produced(spec: ProducerSpec, penaltyCalls: seq<Op>, penaltyEvents: seq<Event>,
                               sent: seq<Work>, counters: Counters)

  function PollEach(spec: ProducerSpec, transports: seq<Outcome<seq<Message>>>, counters: Counters): Produced
    decreases |transports|
  {
    if |transports| == 0 then Produced(spec, [], [], [], counters)
    else
      var step := PollToChannel(spec, transports[0], counters);
      var rest := PollEach(step.spec, transports[1..], step.counters);
      Produced(rest.spec, step.penaltyCalls + rest.penaltyCalls, step.penaltyEvents + rest.penaltyEvents,
               step.sent + rest.sent, rest.counters)
  }

  /** The messages a sequence of transport outcomes delivered, in order. */
  function Received(transports: seq<Outcome<seq<Message>>>): seq<Message>
  {
    if |transports| == 0 then []
    else (if transports[0].Returned? then transports[0].value else []) + Received(transports[1..])
  }

  /** The producer loop: the supervised loop whose body is `pollToChannel`. */
  datatype ProducerTrace = ProducerTrace(produced: Produced, loop: Looping.LoopTrace)

  function RunProducer(spec: ProducerSpec, passes: seq<ProducerPass>, counters: Counters): (t: ProducerTrace)
    ensures t.loop == Looping.RunLoop(LoopView(passes))
    ensures t.loop.bodiesRun <= |passes|
  {
    var loop := Looping.RunLoop(LoopView(passes));
    var transports := seq(loop.bodiesRun, i requires 0 <= i < loop.bodiesRun => passes[i].transport);
    ProducerTrace(PollEach(spec, transports, counters), loop)
  }

  function TransportsOf(passes: seq<ProducerPass>): seq<Outcome<seq<Message>>>
  {
    seq(|passes|, i requires 0 <= i < |passes| => passes[i].transport)
  }

  lemma MessagesOfAppend(a: seq<Work>, b: seq<Work>)
    ensures MessagesOf(a + b) == MessagesOf(a) + MessagesOf(b)
  {
    assert forall i :: 0 <= i < |a + b| ==> MessagesOf(a + b)[i] == (MessagesOf(a) + MessagesOf(b))[i];
  }

  /** Running `pollToChannel` over any sequence of transport outcomes sends exactly
      the received messages, in order, each tagged with the poller's queue: nothing
      is dropped or duplicated. */
  lemma {:induction false} PollEachSendsEverything(spec: ProducerSpec, transports: seq<Outcome<seq<Message>>>,
                                                   counters: Counters)
    ensures var p := PollEach(spec, transports, counters);
            && MessagesOf(p.sent) == Received(transports)
            && (forall w :: w in p.sent ==> w.queueUrl == spec.poller.queueUrl)
            && p.spec.poller == spec.poller
    decreases |transports|
  {
    if |transports| > 0 {
      var step := PollToChannel(spec, transports[0], counters);
      var rest := PollEach(step.spec, transports[1..], step.counters);
      PollEachSendsEverything(step.spec, transports[1..], step.counters);
      MessagesOfAppend(step.sent, rest.sent);
      if transports[0].Returned? {
        assert MessagesOf(step.sent) == transports[0].value;
      } else {
        assert MessagesOf(step.sent) == [];
      }
    }
  }

  /** The polled counter of the producer's queue grows by the number of messages received. */
  lemma {:induction false} PollEachCountsEverything(spec: ProducerSpec, transports: seq<Outcome<seq<Message>>>,
                                                    counters: Counters)
    ensures Count(PollEach(spec, transports, counters).counters, Polled(spec.poller.queueUrl))
              == Count(counters, Polled(spec.poller.queueUrl)) + |Received(transports)|
    decreases |transports|
  {
    if |transports| > 0 {
      var step := PollToChannel(spec, transports[0], counters);
      PollEachCountsEverything(step.spec, transports[1..], step.counters);
    }
  }

  /** The penalty calls a producer made account for its penalty's events and final state. */
  lemma {:induction false} PollEachPenaltyConsistent(spec: ProducerSpec, transports: seq<Outcome<seq<Message>>>,
                                                     counters: Counters)
    ensures var p := PollEach(spec, transports, counters);
            Run(spec.emptyPollPenalty, p.penaltyCalls) == Step(p.spec.emptyPollPenalty, p.penaltyEvents)
    decreases |transports|
  {
    if |transports| > 0 {
      var step := PollToChannel(spec, transports[0], counters);
      PollEachPenaltyConsistent(step.spec, transports[1..], step.counters);
      var rest := PollEach(step.spec, transports[1..], step.counters);
      RunAppend(spec.emptyPollPenalty, step.penaltyCalls, rest.penaltyCalls);
    }
  }

  /** The producer loop forwards exactly the messages of the polls it ran, in poll
      order, all tagged with its queue. */
  lemma ProducerForwardsEveryPolledMessage(spec: ProducerSpec, passes: seq<ProducerPass>, counters: Counters)
    ensures var t := RunProducer(spec, passes, counters);
            && MessagesOf(t.produced.sent) == Received(TransportsOf(passes)[..t.loop.bodiesRun])
            && (forall w :: w in t.produced.sent ==> w.queueUrl == spec.poller.queueUrl)
  {
    var t := RunProducer(spec, passes, counters);
    var transports := seq(t.loop.bodiesRun, i requires 0 <= i < t.loop.bodiesRun => passes[i].transport);
    assert transports == TransportsOf(passes)[..t.loop.bodiesRun];
    PollEachSendsEverything(spec, transports, counters);
  }

  /** Up to the first pass that stops the producer loop, every failed poll's cause
      reaches `onException`, in order. A stopping pass whose poll failed ends the
      loop: a cancellation quietly, any other non-`Exception` cause by escaping. */
  lemma ProducerHandsFailuresToOnException(spec: ProducerSpec, passes: seq<ProducerPass>, counters: Counters, k: nat)
    requires k <= |passes|
    requires forall i :: 0 <= i < k ==> !Looping.Stops(LoopView(passes)[i])
    requires k < |passes| ==> Looping.Stops(LoopView(passes)[k])
    ensures var t := RunProducer(spec, passes, counters).loop;
            && t.onException == Looping.ThrownCauses(LoopView(passes)[..k])
            && (k < |passes| && passes[k].active && passes[k].transport.Threw? ==>
                  t.exit == if passes[k].transport.cause.kind == Cancellation then Looping.CancelledInBody
                            else Looping.Escaped(passes[k].transport.cause))
  {
    Looping.RunLoopCharacterized(LoopView(passes), k);
  }
}

=== FILE: kotlin.dfy ===
/** Integer widths, nullable values and ranges as the Kotlin/JVM code sees them.
    Dafny integers are unbounded; every place where the program relies on a 32- or
    64-bit width goes through one of the functions below. */
module Kotlin {

  const IntMin: int := -0x8000_0000
  const IntMax: int := 0x7fff_ffff
  const LongMin: int := -0x8000_0000_0000_0000
  const LongMax: int := 0x7fff_ffff_ffff_ffff

  predicate IsInt(x: int) { IntMin <= x <= IntMax }

  predicate IsLong(x: int) { LongMin <= x <= LongMax }

  /** Two's-complement truncation to 32 bits: `Int` overflow and `Long.toInt()`. */
  function WrapInt(x: int): (r: int)
    ensures IsInt(r)
    ensures (x - r) % 0x1_0000_0000 == 0
    ensures IsInt(x) ==> r == x
  {
    (x - IntMin) % 0x1_0000_0000 + IntMin
  }

  /** Two's-complement truncation to 64 bits: unchecked `Long` arithmetic. */
  function WrapLong(x: int): (r: int)
    ensures IsLong(r)
    ensures (x - r) % 0x1_0000_0000_0000_0000 == 0
    ensures IsLong(x) ==> r == x
  {
    (x - LongMin) % 0x1_0000_0000_0000_0000 + LongMin
  }

  /** `x.coerceIn(lo, hi)`; Kotlin throws when `lo > hi`, so callers must not do that. */
  function CoerceIn(x: int, lo: int, hi: int): (r: int)
    requires lo <= hi
    ensures lo <= r <= hi
    ensures lo <= x <= hi ==> r == x
    ensures x < lo ==> r == lo
    ensures hi < x ==> r == hi
  {
    if x < lo then lo else if hi < x then hi else x
  }

  function Min(a: int, b: int): int { if a <= b then a else b }

  function Max(a: int, b: int): int { if a <= b then b else a }

  /** The elements of Kotlin's inclusive range `lo..hi`, in iteration order. */
  function InclusiveRange(lo: int, hi: int): (r: seq<int>)
    decreases hi - lo
    ensures |r| == if hi < lo then 0 else hi - lo + 1
    ensures forall i :: 0 <= i < |r| ==> r[i] == lo + i
  {
    if hi < lo then [] else [lo] + InclusiveRange(lo + 1, hi)
  }

  /** The elements of Kotlin's half-open range `lo until hi`. */
  function UntilRange(lo: int, hi: int): (r: seq<int>)
    ensures |r| == if hi <= lo then 0 else hi - lo
    ensures forall i :: 0 <= i < |r| ==> r[i] == lo + i
  {
    InclusiveRange(lo, hi - 1)
  }

  /** A Kotlin nullable value: `None` is `null`. */
  datatype Option<+T> = None | Some(value: T)
}

=== FILE: looping.dfy ===
/** The supervised loop (utility/CoroutineLooping.kt). Coroutines are not modelled;
    a loop is described by what it observes on each pass (whether `isActive` held,
    how the body ended) and what it does in response. */
module Looping {
  import opened Kotlin
  import opened Effects

  datatype CoroutineStart = Default | Lazy | Atomic | Undispatched

  /** Both overloads create their coroutines lazily unless told otherwise. */
  const DefaultStart: CoroutineStart := Lazy

  /** One pass: whether `isActive` held at the check, and how the body then ended. */
  datatype Iteration = Iteration(active: bool, body: Outcome<()>)

  datatype Exit =
    | NotStarted              // created lazily and never started
    | Inactive                // `isActive` was false at the check before a pass
    | CancelledInBody         // the body threw a `CancellationException`
    | Escaped(cause: Cause)   // the body threw a non-`Exception`, which fails the coroutine
    | StillRunning            // the given passes ran out with the loop still going

  /** How many bodies ran, the arguments `onException` was called with, and why the loop ended. */
  datatype LoopTrace = LoopTrace(bodiesRun: nat, onException: seq<Cause>, exit: Exit)

  /** The body outcomes the loop survives: it completed, or it threw an `Exception`
      other than a cancellation, which is handed to `onException`. */
  predicate Continues(body: Outcome<()>)
  {
    body.Returned? || (IsException(body.cause) && body.cause.kind != Cancellation)
  }

  /** The `while (isActive) { try { work() } catch ... }` loop of the single-loop overload. */
  function RunLoop(iterations: seq<Iteration>): (t: LoopTrace)
    ensures t.bodiesRun <= |iterations|
    ensures |t.onException| <= t.bodiesRun
    ensures forall c :: c in t.onException ==> IsException(c) && c.kind != Cancellation
    ensures t.exit != NotStarted
    ensures t.exit == StillRunning ==> t.bodiesRun == |iterations|
    ensures t.exit == Inactive ==> t.bodiesRun < |iterations| && !iterations[t.bodiesRun].active
    decreases |iterations|
  {
    if |iterations| == 0 then LoopTrace(0, [], StillRunning)
    else if !iterations[0].active then LoopTrace(0, [], Inactive)
    else
      var body := iterations[0].body;
      if Continues(body) then
        var rest := RunLoop(iterations[1..]);
        var handled := if body.Threw? then [body.cause] else [];
        LoopTrace(rest.bodiesRun + 1, handled + rest.onException, rest.exit)
      else if body.cause.kind == Cancellation then LoopTrace(1, [], CancelledInBody)
      else LoopTrace(1, [], Escaped(body.cause))
  }

  /** The exceptions thrown by a sequence of bodies, in order. */
  function ThrownCauses(iterations: seq<Iteration>): seq<Cause>
  {
    if |iterations| == 0 then []
    else (if iterations[0].body.Threw? then [iterations[0].body.cause] else []) + ThrownCauses(iterations[1..])
  }

  /** A pass at which the loop stops: `isActive` was false, or the body threw
      something the loop does not survive. */
  predicate Stops(it: Iteration)
  {
    !it.active || !Continues(it.body)
  }

  /** The loop described without recursion: if `k` is the first pass that stops it
      (or the end of the input), then exactly the bodies of the passes before `k`
      ran, plus that of pass `k` if `isActive` held there; `onException` got every
      exception thrown before `k`, in order; and pass `k` decides the exit. */
  lemma {:induction false} RunLoopCharacterized(iterations: seq<Iteration>, k: nat)
    requires k <= |iterations|
    requires forall i :: 0 <= i < k ==> !Stops(iterations[i])
    requires k < |iterations| ==> Stops(iterations[k])
    ensures RunLoop(iterations).onException == ThrownCauses(iterations[..k])
    ensures RunLoop(iterations).bodiesRun == if k < |iterations| && iterations[k].active then k + 1 else k
    ensures RunLoop(iterations).exit ==
              if k == |iterations| then StillRunning
              else if !iterations[k].active then Inactive
              else if iterations[k].body.cause.kind == Cancellation then CancelledInBody
              else Escaped(iterations[k].body.cause)
    decreases k
  {
    if k == 0 {
      assert iterations[..k] == [];
    } else {
      assert iterations[..k][1..] == iterations[1..][..k - 1];
      RunLoopCharacterized(iterations[1..], k - 1);
    }
  }

  /** Once `isActive` is false, no later body runs. */
  lemma NoBodyAfterInactive(iterations: seq<Iteration>, i: nat)
    requires i < |iterations| && !iterations[i].active
    ensures RunLoop(iterations).bodiesRun <= i
  {
    var k :| 0 <= k <= i && (forall j :: 0 <= j < k ==> !Stops(iterations[j])) && Stops(iterations[k]) by {
      FirstStop(iterations, i);
    }
    RunLoopCharacterized(iterations, k);
  }

  /** A cancellation thrown by a body ends the loop there, without calling `onException` for it. */
  lemma CancellationEndsLoop(iterations: seq<Iteration>, i: nat, c: Cause)
    requires i < |iterations| && iterations[i] == Iteration(true, Threw(c)) && c.kind == Cancellation
    requires forall j :: 0 <= j < i ==> !Stops(iterations[j])
    ensures RunLoop(iterations).exit == CancelledInBody
    ensures RunLoop(iterations).bodiesRun == i + 1
    ensures RunLoop(iterations).onException == ThrownCauses(iterations[..i])
  {
    RunLoopCharacterized(iterations, i);
  }

  lemma FirstStop(iterations: seq<Iteration>, i: nat)
    requires i < |iterations| && Stops(iterations[i])
    ensures exists k :: 0 <= k <= i && (forall j :: 0 <= j < k ==> !Stops(iterations[j])) && Stops(iterations[k])
  {
    if exists j :: 0 <= j < i && Stops(iterations[j]) {
      var j :| 0 <= j < i && Stops(iterations[j]);
      FirstStop(iterations, j);
    }
  }

  /** A loop launched lazily runs nothing until it is started. */
  function RunJob(start: CoroutineStart, started: bool, iterations: seq<Iteration>): (t: LoopTrace)
    ensures t.exit == NotStarted <==> start == Lazy && !started
    ensures t.exit == NotStarted ==> t.bodiesRun == 0 && t.onException == []
    ensures t.bodiesRun <= |iterations|
  {
    if start == Lazy && !started then LoopTrace(0, [], NotStarted) else RunLoop(iterations)
  }

  /** The loops the count overload `loopUntilCancelled(count, ...)` launches as
      written: one per element of the inclusive range `0..count`. */
  function LaunchAsWritten(count: int): (loops: seq<int>)
    ensures |loops| == if count < 0 then 0 else count + 1
    ensures forall i :: 0 <= i < |loops| ==> loops[i] == i
  {
    InclusiveRange(0, count)
  }

  /** The loops the count overload evidently means to launch: `count` of them, one
      per element of `0 until count`. */
  function Launch(count: int): (loops: seq<int>)
    ensures |loops| == Max(count, 0)
    ensures forall i :: 0 <= i < |loops| ==> loops[i] == i
  {
    UntilRange(0, count)
  }

  /** The sampler is launched with `count = 1`: the code as written starts two
      sampler loops, and in general one loop more than asked for. */
  lemma LaunchOffByOne(count: int)
    requires 0 <= count
    ensures |LaunchAsWritten(count)| == |Launch(count)| + 1
    ensures |LaunchAsWritten(1)| == 2 && |Launch(1)| == 1
  {
  }
}

=== FILE: penalties.dfy ===
/** Penalty strategies (the `penalty` package): what a supervised loop waits after a failure
    or an empty poll. A strategy is a value; `Apply` and `Reset` return the strategy
    as it is afterwards together with the calls it made, so the stateful backoff
    counter is threaded through explicitly.

    The interface declares `applyAndIncrement` (PenaltyStrategy.kt:7) while the
    backoff class and one call site spell it `applyPenalty`; both names are the one
    operation `Apply` here. */
module Penalties {
  import opened Kotlin
  import opened Time
  import opened Configuration

  /** The hard ceiling on a backoff's maximum, one hour, in milliseconds. */
  const MaxBackoffMs: int := 3_600_000

  /** The backoff step used unless a caller passes another one. */
  const DefaultStep: Duration := 100 * NanosPerMilli

  datatype Strategy =
    | NoPenaltyStrategy
    | FixedDelayPenalty(duration: Duration)
    | BackoffDelayPenalty(maxDurationMs: int, stepMs: int, counter: int)
    | CustomPenalty(strategy: StrategyId)

  /** A call a strategy makes: its delayer with a length in milliseconds, or, for a
      caller-supplied strategy, the forwarded call on that object. */
  datatype Event =
    | DelayerCalled(ms: int)
    | CustomApplied(strategy: StrategyId)
    | CustomReset(strategy: StrategyId)

  datatype Op = ApplyOp | ResetOp

  datatype Step = Step(next: Strategy, events: seq<Event>)

  /** The states a strategy built by the engine can be in: the backoff counter is a
      non-negative `Int` and the maximum is at most one hour. */
  predicate Valid(s: Strategy)
  {
    s.BackoffDelayPenalty? ==>
      && 0 <= s.counter <= IntMax
      && IsLong(s.stepMs)
      && LongMin <= s.maxDurationMs <= MaxBackoffMs
  }

  function Pow2(n: nat): (r: nat)
    ensures 1 <= r
  {
    if n == 0 then 1 else 2 * Pow2(n - 1)
  }

  lemma {:induction false} Pow2Add(a: nat, b: nat)
    ensures Pow2(a + b) == Pow2(a) * Pow2(b)
    decreases a
  {
    if a > 0 {
      Pow2Add(a - 1, b);
    }
  }

  lemma {:induction false} Pow2Monotonic(a: nat, b: nat)
    requires a <= b
    ensures Pow2(a) <= Pow2(b)
    decreases b - a
  {
    if a < b {
      Pow2Monotonic(a, b - 1);
    }
  }

  lemma Pow2Of56()
    ensures Pow2(56) == 0x100_0000_0000_0000
  {
    assert Pow2(2) == 4;
    Pow2Add(2, 2);
    assert Pow2(4) == 16;
    Pow2Add(4, 4);
    assert Pow2(8) == 256;
    Pow2Add(8, 8);
    assert Pow2(16) == 0x1_0000;
    Pow2Add(16, 16);
    assert Pow2(32) == 0x1_0000_0000;
    Pow2Add(32, 16);
    assert Pow2(48) == 0x1_0000_0000_0000;
    Pow2Add(48, 8);
  }

  lemma Pow2Values()
    ensures Pow2(57) == 0x200_0000_0000_0000
    ensures Pow2(62) == 0x4000_0000_0000_0000
    ensures Pow2(63) == 0x8000_0000_0000_0000
  {
    Pow2Of56();
    assert Pow2(1) == 2;
    Pow2Add(56, 1);
    assert Pow2(6) == 64;
    Pow2Add(56, 6);
    Pow2Add(62, 1);
  }

  /** `2.0.pow(counter).coerceIn(1.0, Long.MAX_VALUE.toDouble()).toLong()`. A power
      2^c with c <= 62 is exact in a double; from c = 63 on the power is at least
      2^63, which the coercion and the saturating `toLong()` turn into
      `Long.MAX_VALUE`; a negative exponent gives a fraction, lifted to 1. */
  function Multiplier(counter: int): (m: int)
    ensures 1 <= m <= LongMax
    ensures 0 <= counter ==> m <= Pow2(counter)
    ensures 0 <= counter <= 62 ==> m == Pow2(counter)
    ensures counter <= 0 ==> m == 1
    ensures 62 < counter ==> m == LongMax
  {
    Pow2Values();
    if counter <= 0 then 1
    else if counter <= 62 then (Pow2Monotonic(counter, 62); Pow2(counter))
    else (Pow2Monotonic(63, counter); LongMax)
  }

  lemma MultiplierMonotonic(a: int, b: int)
    requires a <= b
    ensures Multiplier(a) <= Multiplier(b)
  {
    if 0 < a <= 62 && b <= 62 {
      Pow2Monotonic(a, b);
    }
  }

  /** The delay, in milliseconds, that the code as written emits when the counter
      reads `counter`: the product `stepMs * multiplier` is unchecked `Long`
      arithmetic, so it wraps around before `Long.min` caps it. */
  function AsWrittenDelayMs(stepMs: int, maxMs: int, counter: int): (ms: int)
    ensures ms <= maxMs
    ensures IsLong(maxMs) ==> IsLong(ms)
  {
    Min(WrapLong(stepMs * Multiplier(counter)), maxMs)
  }

  /** The delay, in milliseconds, a backoff emits when its counter reads `counter`:
      `step * 2^counter`, capped at `maxMs`, with the product saturating at the
      `Long` range instead of wrapping. */
  function DelayMs(stepMs: int, maxMs: int, counter: int): (ms: int)
    ensures ms <= maxMs
    ensures 0 <= stepMs && 0 <= maxMs ==> 0 <= ms
    ensures 0 <= stepMs && maxMs <= LongMax && 0 <= counter <= 62 ==>
              ms == Min(stepMs * Pow2(counter), maxMs)
    ensures 0 < stepMs && maxMs <= LongMax && 62 < counter ==> ms == maxMs
  {
    Min(CoerceIn(stepMs * Multiplier(counter), LongMin, LongMax), maxMs)
  }

  /** Below the overflow point the two formulas are the same function. */
  lemma AsWrittenAgreesBelowOverflow(stepMs: int, maxMs: int, counter: int)
    requires IsLong(stepMs * Multiplier(counter))
    ensures AsWrittenDelayMs(stepMs, maxMs, counter) == DelayMs(stepMs, maxMs, counter)
  {
  }

  /** Non-negativity of the code's delay holds only while step * 2^c stays below 2^63. */
  lemma AsWrittenNonNegative(stepMs: int, maxMs: int, counter: nat)
    requires 0 <= stepMs && 0 <= maxMs
    requires stepMs * Pow2(counter) <= LongMax
    ensures 0 <= AsWrittenDelayMs(stepMs, maxMs, counter)
  {
    MulMonotonic(stepMs, Multiplier(counter), Pow2(counter));
    MulMonotonic(stepMs, 0, Multiplier(counter));
    assert IsLong(stepMs * Multiplier(counter));
  }

  /** Successive delays of the code do not decrease, again only below the overflow point. */
  lemma AsWrittenMonotonic(stepMs: int, maxMs: int, c1: nat, c2: nat)
    requires 0 <= stepMs && c1 <= c2
    requires stepMs * Pow2(c2) <= LongMax
    ensures AsWrittenDelayMs(stepMs, maxMs, c1) <= AsWrittenDelayMs(stepMs, maxMs, c2)
  {
    MultiplierMonotonic(c1, c2);
    MulMonotonic(stepMs, Multiplier(c1), Multiplier(c2));
    MulMonotonic(stepMs, Multiplier(c2), Pow2(c2));
    MulMonotonic(stepMs, 0, Multiplier(c1));
    assert IsLong(stepMs * Multiplier(c1)) && IsLong(stepMs * Multiplier(c2));
  }

  lemma MulMonotonic(a: int, x: int, y: int)
    requires 0 <= a && x <= y
    ensures a * x <= a * y
  {
  }

  /** With the default 100 ms step and a one-minute maximum, the 58th consecutive
      call (counter 57) emits a negative delay in the code as written, where the
      saturating formula emits the maximum; from the 64th call on the code emits
      -100 ms on every call until a reset. */
  lemma AsWrittenDelayGoesNegative()
    ensures AsWrittenDelayMs(100, 60_000, 57) == -4_035_225_266_123_964_416
    ensures DelayMs(100, 60_000, 57) == 60_000
    ensures forall c :: 63 <= c ==> AsWrittenDelayMs(100, 60_000, c) == -100
  {
    Pow2Values();
    assert Multiplier(57) == 0x200_0000_0000_0000;
    assert WrapLong(100 * LongMax) == -100;
  }

  lemma DelayMsMonotonic(stepMs: int, maxMs: int, c1: int, c2: int)
    requires 0 <= stepMs && c1 <= c2
    ensures DelayMs(stepMs, maxMs, c1) <= DelayMs(stepMs, maxMs, c2)
  {
    MultiplierMonotonic(c1, c2);
    MulMonotonic(stepMs, Multiplier(c1), Multiplier(c2));
  }

  /** `counter.incrementAndGet()` on an `AtomicInteger`, followed by the reset when
      the value wrapped around to a negative number. */
  function IncreaseCounter(counter: int): (next: int)
    ensures IsInt(counter) ==> 0 <= next <= IntMax
    ensures 0 <= counter < IntMax ==> next == counter + 1
    ensures counter == IntMax ==> next == 0
  {
    var value := WrapInt(counter + 1);
    if value < 0 then 0 else value
  }

  /** `BackoffDelayPenalty(maxDuration, step)`: the maximum is coerced to at most one
      hour before it is converted to milliseconds; the counter starts at zero. */
  function NewBackoff(maxDuration: Duration, step: Duration): (s: Strategy)
    ensures s.BackoffDelayPenalty? && s.counter == 0 && Valid(s)
    ensures s.maxDurationMs == Min(ToMillis(maxDuration), MaxBackoffMs)
    ensures s.stepMs == ToMillis(step)
  {
    CappedMillis(maxDuration);
    BackoffDelayPenalty(ToMillis(CoerceAtMost(maxDuration, OneHour)), ToMillis(step), 0)
  }

  /** Capping a duration at one hour and then converting it is the same as
      converting it and capping the milliseconds. */
  lemma CappedMillis(d: Duration)
    ensures ToMillis(CoerceAtMost(d, OneHour)) == Min(ToMillis(d), MaxBackoffMs)
  {
    if d <= OneHour {
      ToMillisMonotonic(d, OneHour);
    } else {
      ToMillisMonotonic(OneHour, d);
    }
  }

  /** One `applyAndIncrement()` call. The backoff reads its counter, computes the
      delay from that value, increments the counter and only then calls the delayer,
      so the counter has advanced even if the delay is cancelled. */
  function Apply(s: Strategy): (r: Step)
    ensures Valid(s) ==> Valid(r.next)
    ensures |r.events| <= 1
    ensures !s.BackoffDelayPenalty? ==> r.next == s
    ensures s.NoPenaltyStrategy? ==> r.events == []
    ensures s.FixedDelayPenalty? ==>
              (r.events == [] <==> s.duration == Zero)
              && forall e :: e in r.events ==> e == DelayerCalled(ToMillis(s.duration))
    ensures s.BackoffDelayPenalty? ==>
              && r.next == s.(counter := IncreaseCounter(s.counter))
              && |r.events| == 1
              && r.events[0] == DelayerCalled(DelayMs(s.stepMs, s.maxDurationMs, s.counter))
              && r.events[0].ms <= s.maxDurationMs
    ensures s.CustomPenalty? ==> r.events == [CustomApplied(s.strategy)]
  {
    match s
    case NoPenaltyStrategy => Step(s, [])
    case FixedDelayPenalty(duration) =>
      if duration == Zero then Step(s, []) else Step(s, [DelayerCalled(ToMillis(duration))])
    case BackoffDelayPenalty(maxMs, stepMs, counter) =>
      var ms := DelayMs(stepMs, maxMs, counter);
      Step(s.(counter := IncreaseCounter(counter)), [DelayerCalled(ms)])
    case CustomPenalty(id) => Step(s, [CustomApplied(id)])
  }

  /** One `reset()` call: only the backoff has state to clear. */
  function Reset(s: Strategy): (r: Step)
    ensures Valid(s) ==> Valid(r.next)
    ensures s.BackoffDelayPenalty? ==> r.next == s.(counter := 0) && r.events == []
    ensures s.CustomPenalty? ==> r.next == s && r.events == [CustomReset(s.strategy)]
    ensures s.NoPenaltyStrategy? || s.FixedDelayPenalty? ==> r.next == s && r.events == []
  {
    match s
    case BackoffDelayPenalty(_, _, _) => Step(s.(counter := 0), [])
    case CustomPenalty(id) => Step(s, [CustomReset(id)])
    case _ => Step(s, [])
  }

  /** While the backoff's `step * multiplier` still fits in a `Long`, the delay
      `Apply` emits is exactly the one the code computes; only past that point do
      the two differ. */
  lemma ApplyAgreesWithCodeBelowOverflow(s: Strategy)
    requires s.BackoffDelayPenalty? && IsLong(s.stepMs * Multiplier(s.counter))
    ensures Apply(s).events == [DelayerCalled(AsWrittenDelayMs(s.stepMs, s.maxDurationMs, s.counter))]
  {
    AsWrittenAgreesBelowOverflow(s.stepMs, s.maxDurationMs, s.counter);
  }

  function Perform(s: Strategy, op: Op): Step
  {
    if op == ApplyOp then Apply(s) else Reset(s)
  }

  /** A sequence of calls on one strategy, in order; the events are concatenated. */
  function Run(s: Strategy, ops: seq<Op>): (r: Step)
    decreases |ops|
    ensures Valid(s) ==> Valid(r.next)
  {
    if |ops| == 0 then Step(s, [])
    else
      var first := Perform(s, ops[0]);
      var rest := Run(first.next, ops[1..]);
      Step(rest.next, first.events + rest.events)
  }

  function Applies(k: nat): seq<Op>
  {
    seq(k, _ => ApplyOp)
  }

  function ApplyCount(ops: seq<Op>): nat
  {
    if |ops| == 0 then 0 else (if ops[0] == ApplyOp then 1 else 0) + ApplyCount(ops[1..])
  }

  /** `PenaltyConfiguration.makePenalty()`: a fixed or backoff configuration builds a
      new object on every call; `NoPenalty` maps to the one shared object; a custom
      configuration returns the very object it holds, so repeated calls share it. */
  function MakePenalty(c: PenaltyConfiguration): (s: Strategy)
    ensures Valid(s)
    ensures c.NoPenalty? ==> s == NoPenaltyStrategy
    ensures c.FixedDelay? ==> s == FixedDelayPenalty(c.duration)
    ensures c.BackoffDelay? ==>
              && s.BackoffDelayPenalty?
              && s.counter == 0
              && s.stepMs == 100
              && s.maxDurationMs == Min(ToMillis(c.maxDuration), MaxBackoffMs)
    ensures c.Custom? ==> s == CustomPenalty(c.strategy)
  {
    match c
    case NoPenalty => NoPenaltyStrategy
    case FixedDelay(duration) => FixedDelayPenalty(duration)
    case BackoffDelay(maxDuration) => NewBackoff(maxDuration, DefaultStep)
    case Custom(strategy) => CustomPenalty(strategy)
  }

  // ---------------------------------------------------------------------------
  // Properties of call sequences

  /** Closed form of a run of applies on a backoff: the i-th call emits the delay
      for counter value c + i, and the counter ends at c + k. */
  lemma {:induction false} BackoffAppliesClosedForm(s: Strategy, k: nat)
    requires s.BackoffDelayPenalty? && 0 <= s.counter && s.counter + k <= IntMax
    ensures Run(s, Applies(k)).next == s.(counter := s.counter + k)
    ensures |Run(s, Applies(k)).events| == k
    ensures forall i :: 0 <= i < k ==>
              Run(s, Applies(k)).events[i] == DelayerCalled(DelayMs(s.stepMs, s.maxDurationMs, s.counter + i))
    decreases k
  {
    if k > 0 {
      var first := Apply(s);
      assert Applies(k)[1..] == Applies(k - 1);
      BackoffAppliesClosedForm(first.next, k - 1);
    }
  }

  /** No delay a backoff emits exceeds its maximum, whatever calls are made. */
  lemma {:induction false} BackoffRunBounded(s: Strategy, ops: seq<Op>)
    requires s.BackoffDelayPenalty?
    ensures Run(s, ops).next.BackoffDelayPenalty?
    ensures forall e :: e in Run(s, ops).events ==> e.DelayerCalled? && e.ms <= s.maxDurationMs
    decreases |ops|
  {
    if |ops| > 0 {
      BackoffRunBounded(Perform(s, ops[0]).next, ops[1..]);
    }
  }

  /** Between resets the delays of a backoff do not decrease (until the `Int` counter
      wraps after 2^31 - 1 calls). */
  lemma BackoffDelaysNonDecreasing(s: Strategy, k: nat, i: nat, j: nat)
    requires s.BackoffDelayPenalty? && 0 <= s.stepMs
    requires 0 <= s.counter && s.counter + k <= IntMax
    requires i <= j < k
    ensures var events := Run(s, Applies(k)).events;
              && |events| == k
              && events[i].DelayerCalled? && events[j].DelayerCalled?
              && events[i].ms <= events[j].ms
  {
    BackoffAppliesClosedForm(s, k);
    var events := Run(s, Applies(k)).events;
    assert events[i] == DelayerCalled(DelayMs(s.stepMs, s.maxDurationMs, s.counter + i));
    assert events[j] == DelayerCalled(DelayMs(s.stepMs, s.maxDurationMs, s.counter + j));
    DelayMsMonotonic(s.stepMs, s.maxDurationMs, s.counter + i, s.counter + j);
  }

  /** After a reset the next call emits the first step again. */
  lemma BackoffResetRestarts(s: Strategy)
    requires s.BackoffDelayPenalty?
    ensures Run(s, [ResetOp, ApplyOp]).events == [DelayerCalled(DelayMs(s.stepMs, s.maxDurationMs, 0))]
  {
    assert [ResetOp, ApplyOp][1..] == [ApplyOp];
  }

  lemma {:induction false} RunAppend(s: Strategy, a: seq<Op>, b: seq<Op>)
    ensures Run(s, a + b).next == Run(Run(s, a).next, b).next
    ensures Run(s, a + b).events == Run(s, a).events + Run(Run(s, a).next, b).events
    decreases |a|
  {
    if |a| == 0 {
      assert a + b == b;
    } else {
      assert (a + b)[0] == a[0];
      assert (a + b)[1..] == a[1..] + b;
      RunAppend(Perform(s, a[0]).next, a[1..], b);
    }
  }

  /** Six calls on a fresh backoff with a 100 ms step and a 2 s maximum. */
  lemma BackoffSixCalls()
    ensures Run(NewBackoff(OfSeconds(2), OfMillis(100)), Applies(6)).events ==
              [DelayerCalled(100), DelayerCalled(200), DelayerCalled(400),
               DelayerCalled(800), DelayerCalled(1600), DelayerCalled(2000)]
  {
    var s := NewBackoff(OfSeconds(2), OfMillis(100));
    assert s == BackoffDelayPenalty(2000, 100, 0);
    BackoffAppliesClosedForm(s, 6);
  }

  /** Three calls, a reset, three calls: the sequence restarts at the step. */
  lemma BackoffResetSequence()
    ensures Run(NewBackoff(OfSeconds(2), OfMillis(100)), Applies(3) + [ResetOp] + Applies(3)).events ==
              [DelayerCalled(100), DelayerCalled(200), DelayerCalled(400),
               DelayerCalled(100), DelayerCalled(200), DelayerCalled(400)]
  {
    var s := NewBackoff(OfSeconds(2), OfMillis(100));
    assert s == BackoffDelayPenalty(2000, 100, 0);
    BackoffAppliesClosedForm(s, 3);
    var mid := Run(s, Applies(3)).next;
    assert Run(mid, [ResetOp]) == Step(s, []);
    BackoffAppliesClosedForm(s, 3);
    RunAppend(s, Applies(3), [ResetOp]);
    RunAppend(s, Applies(3) + [ResetOp], Applies(3));
  }

  /** A fixed penalty is stateless: its events depend only on how many applies were
      made, and a zero duration never calls the delayer. */
  lemma {:induction false} FixedRun(d: Duration, ops: seq<Op>)
    ensures Run(FixedDelayPenalty(d), ops).next == FixedDelayPenalty(d)
    ensures Run(FixedDelayPenalty(d), ops).events ==
              if d == Zero then [] else seq(ApplyCount(ops), _ => DelayerCalled(ToMillis(d)))
    decreases |ops|
  {
    if |ops| > 0 {
      FixedRun(d, ops[1..]);
    }
  }

  lemma FixedDependsOnlyOnApplyCount(d: Duration, ops1: seq<Op>, ops2: seq<Op>)
    requires ApplyCount(ops1) == ApplyCount(ops2)
    ensures Run(FixedDelayPenalty(d), ops1) == Run(FixedDelayPenalty(d), ops2)
  {
    FixedRun(d, ops1);
    FixedRun(d, ops2);
  }

  /** Three applies of a 100 ms fixed penalty, with or without a reset after the first. */
  lemma FixedThreeCalls()
    ensures Run(FixedDelayPenalty(OfMillis(100)), Applies(3)).events ==
              [DelayerCalled(100), DelayerCalled(100), DelayerCalled(100)]
    ensures Run(FixedDelayPenalty(OfMillis(100)), [ApplyOp, ResetOp, ApplyOp, ApplyOp]).events ==
              [DelayerCalled(100), DelayerCalled(100), DelayerCalled(100)]
  {
    FixedRun(OfMillis(100), Applies(3));
    FixedRun(OfMillis(100), [ApplyOp, ResetOp, ApplyOp, ApplyOp]);
    assert ApplyCount(Applies(3)) == 3 by {
      assert Applies(3)[1..] == Applies(2);
      assert Applies(2)[1..] == Applies(1);
      assert Applies(1)[1..] == [];
    }
    assert ApplyCount([ApplyOp, ResetOp, ApplyOp, ApplyOp]) == 3 by {
      assert [ApplyOp, ResetOp, ApplyOp, ApplyOp][1..] == [ResetOp, ApplyOp, ApplyOp];
      assert [ResetOp, ApplyOp, ApplyOp][1..] == [ApplyOp, ApplyOp];
      assert [ApplyOp, ApplyOp][1..] == [ApplyOp];
    }
  }

  /** The zero test is on the duration, not on its milliseconds: a positive duration
      shorter than a millisecond still calls the delayer, with 0. */
  lemma FixedSubMillisecondCallsDelayer()
    ensures Apply(FixedDelayPenalty(500_000)).events == [DelayerCalled(0)]
  {
  }

  /** Any interleaving of applies and resets on `NoPenalty` has no effect. */
  lemma {:induction false} NoPenaltyRun(ops: seq<Op>)
    ensures Run(NoPenaltyStrategy, ops) == Step(NoPenaltyStrategy, [])
    decreases |ops|
  {
    if |ops| > 0 {
      NoPenaltyRun(ops[1..]);
    }
  }

  /** A custom strategy receives every call, in order, and nothing else happens. */
  lemma {:induction false} CustomRun(id: StrategyId, ops: seq<Op>)
    ensures Run(CustomPenalty(id), ops).next == CustomPenalty(id)
    ensures Run(CustomPenalty(id), ops).events ==
              seq(|ops|, i requires 0 <= i < |ops| =>
                    if ops[i] == ApplyOp then CustomApplied(id) else CustomReset(id))
    decreases |ops|
  {
    if |ops| > 0 {
      CustomRun(id, ops[1..]);
    }
  }
}

=== FILE: poller.dfy ===
/** Receiving one batch from a queue (poller/QueuePolling.kt, poller/QueuePoller.kt).
    The transport call is abstracted as its outcome: the received messages, or the
    exception it raised. */
module Poller {
  import opened Kotlin
  import opened Effects
  import opened Sqs

  datatype QueuePoller = QueuePoller(batchSize: int, queueUrl: string, waitTimeSeconds: int)

  datatype PollResult = Failure(cause: Cause) | Success(messages: seq<Message>)

  /** The request sent, how `poll` ended, and the counters afterwards. */
  datatype PollStep = PollStep(request: ReceiveMessageRequest, outcome: Outcome<PollResult>, counters: Counters)

  /** `QueuePoller.poll`. A transport `SdkException` becomes `Failure` and nothing is
      counted; any other exception escapes; a response is returned as `Success` with
      its messages, after the polled counter is raised by their number (zero too). */
  function Poll(poller: QueuePoller, transport: Outcome<seq<Message>>, counters: Counters): (r: PollStep)
    ensures r.request.queueUrl == poller.queueUrl
    ensures r.request.maxNumberOfMessages == poller.batchSize
    ensures r.request.waitTimeSeconds == poller.waitTimeSeconds
    ensures r.request.attributeNames == ["All"] && r.request.messageAttributeNames == [".*"]
    ensures transport.Returned? ==>
              && r.outcome == Returned(Success(transport.value))
              && Count(r.counters, Polled(poller.queueUrl)) == Count(counters, Polled(poller.queueUrl)) + |transport.value|
              && UnchangedExcept(counters, r.counters, {Polled(poller.queueUrl)})
    ensures transport.Threw? ==> r.counters == counters
    ensures transport.Threw? && transport.cause.kind == Sdk ==> r.outcome == Returned(Failure(transport.cause))
    ensures transport.Threw? && transport.cause.kind != Sdk ==> r.outcome == Threw(transport.cause)
  {
    var request := ReceiveMessageRequest(poller.queueUrl, ["All"], [".*"], poller.batchSize, poller.waitTimeSeconds);
    match transport
    case Threw(cause) =>
      if cause.kind == Sdk then PollStep(request, Returned(Failure(cause)), counters)
      else PollStep(request, Threw(cause), counters)
    case Returned(messages) =>
      PollStep(request, Returned(Success(messages)), Increment(counters, Polled(poller.queueUrl), |messages|))
  }

  /** The number of messages delivered by a sequence of transport outcomes. */
  function Delivered(transports: seq<Outcome<seq<Message>>>): nat
  {
    if |transports| == 0 then 0
    else (if transports[0].Returned? then |transports[0].value| else 0) + Delivered(transports[1..])
  }

  /** The counters after polling once per transport outcome, in order. */
  function PollAll(poller: QueuePoller, transports: seq<Outcome<seq<Message>>>, counters: Counters): Counters
    decreases |transports|
  {
    if |transports| == 0 then counters
    else PollAll(poller, transports[1..], Poll(poller, transports[0], counters).counters)
  }

  /** Over any sequence of polls the polled counter grows by exactly the number of
      messages received; failed polls add nothing. */
  lemma {:induction false} PolledCounterTotals(poller: QueuePoller, transports: seq<Outcome<seq<Message>>>, counters: Counters)
    ensures Count(PollAll(poller, transports, counters), Polled(poller.queueUrl))
              == Count(counters, Polled(poller.queueUrl)) + Delivered(transports)
    decreases |transports|
  {
    if |transports| > 0 {
      PolledCounterTotals(poller, transports[1..], Poll(poller, transports[0], counters).counters);
    }
  }
}

=== FILE: processor.dfy ===
/** Handling one work item (router/RoutingWorkProcessor.kt): route it, run the
    handler, carry out the action the handler asked for, count the outcome. The
    handler is external code, abstracted as the outcome of its one call; the
    transport calls of the actions are abstracted as their outcomes. */
module Processor {
  import opened Kotlin
  import opened Effects
  import opened Sqs
  import opened Actions
  import opened Router
  import Deleter
  import Delayer

  /** Which handler was invoked (none when the message had no route), the transport
      requests made, the counters afterwards, and how `process` ended. */
  datatype ProcessStep = ProcessStep(handler: Option<HandlerId>, requests: seq<Request>,
                                     counters: Counters, outcome: Outcome<()>)

  /** The counters after a normally completed processing: the per-queue and the
      total processed counters, and `extra` when present, each went up by one;
      nothing else changed. */
  ghost predicate CountedProcessed(before: Counters, after: Counters, queue: string, extra: Option<CounterKey>)
  {
    && Count(after, Processed(queue)) == Count(before, Processed(queue)) + 1
    && Count(after, ProcessedTotal) == Count(before, ProcessedTotal) + 1
    && (extra.Some? ==> Count(after, extra.value) == Count(before, extra.value) + 1)
    && UnchangedExcept(before, after, {Processed(queue), ProcessedTotal} + (if extra.Some? then {extra.value} else {}))
  }

  /** Carrying out the handler's action against the work item's queue. A `Failure`
      result would only be logged; the wrappers never return one. */
  function PostProcess(action: PostProcessAction, work: Work, deleteTransport: Outcome<()>,
                       delayTransport: Outcome<()>, counters: Counters): (seq<Request>, Counters, Outcome<()>)
  {
    match action
    case DoNothing => ([], counters, Returned(()))
    case Delete =>
      var d := Deleter.Delete(work.queueUrl, work.message.receiptHandle, deleteTransport, counters);
      ([DeleteMessage(d.request)], d.counters, if d.outcome.Threw? then Threw(d.outcome.cause) else Returned(()))
    case RetryLater(after) =>
      var d := Delayer.Delay(work.queueUrl, work.message.receiptHandle, after, delayTransport, counters);
      ([ChangeMessageVisibility(d.request)], d.counters, if d.outcome.Threw? then Threw(d.outcome.cause) else Returned(()))
  }

  /** `RoutingWorkProcessor.process`, as a decision table over the outcome of
      `router.route` and the handler's outcome: at most one transport call, and
      exactly the counter updates the table gives. The router is any
      `MessageRouting`, so its call is abstracted as its outcome like the handler's;
      `RoutedByTypeAttribute` instantiates it with the library's own router. */
  function Process(route: Outcome<Option<HandlerId>>, work: Work, handlerOutcome: Outcome<PostProcessAction>,
                   deleteTransport: Outcome<()>, delayTransport: Outcome<()>, counters: Counters): (r: ProcessStep)
    ensures r.handler == (if route.Returned? then route.value else None)
    ensures |r.requests| <= 1
    // `route` threw: the exception propagates before any handler runs or counter moves
    ensures route.Threw? ==> r.outcome == Threw(route.cause) && r.requests == [] && r.counters == counters
    // no route: counted as failed, handler never invoked, no transport call
    ensures route == Returned(None) ==>
              && r.outcome == Returned(())
              && r.requests == []
              && Count(r.counters, Failed(work.queueUrl)) == Count(counters, Failed(work.queueUrl)) + 1
              && UnchangedExcept(counters, r.counters, {Failed(work.queueUrl)})
    // the handler threw: the exception propagates, nothing else happens
    ensures r.handler.Some? && handlerOutcome.Threw? ==>
              r.outcome == Threw(handlerOutcome.cause) && r.requests == [] && r.counters == counters
    ensures r.handler.Some? && handlerOutcome == Returned(DoNothing) ==>
              && r.outcome == Returned(())
              && r.requests == []
              && CountedProcessed(counters, r.counters, work.queueUrl, None)
    ensures r.handler.Some? && handlerOutcome == Returned(Delete) ==>
              && r.requests == [DeleteMessage(DeleteMessageRequest(work.queueUrl, work.message.receiptHandle))]
              && (Tolerated(deleteTransport) ==>
                    r.outcome == Returned(()) && CountedProcessed(counters, r.counters, work.queueUrl, Some(Deleted(work.queueUrl))))
              && (!Tolerated(deleteTransport) ==> r.outcome == deleteTransport && r.counters == counters)
    ensures r.handler.Some? && handlerOutcome.Returned? && handlerOutcome.value.RetryLater? ==>
              && r.requests == [ChangeMessageVisibility(ChangeMessageVisibilityRequest(
                                  work.queueUrl, work.message.receiptHandle,
                                  Delayer.VisibilityTimeoutSeconds(handlerOutcome.value.after)))]
              && (Tolerated(delayTransport) ==>
                    r.outcome == Returned(()) && CountedProcessed(counters, r.counters, work.queueUrl, Some(Delayed(work.queueUrl))))
              && (!Tolerated(delayTransport) ==> r.outcome == delayTransport && r.counters == counters)
  {
    match route
    case Threw(cause) => ProcessStep(None, [], counters, Threw(cause))
    case Returned(None) => ProcessStep(None, [], Increment(counters, Failed(work.queueUrl), 1), Returned(()))
    case Returned(Some(h)) =>
      match handlerOutcome
      case Threw(cause) => ProcessStep(Some(h), [], counters, Threw(cause))
      case Returned(action) =>
        var (requests, after, outcome) := PostProcess(action, work, deleteTransport, delayTransport, counters);
        if outcome.Threw? then ProcessStep(Some(h), requests, after, outcome)
        else
          var counted := Increment(Increment(after, Processed(work.queueUrl), 1), ProcessedTotal, 1);
          ProcessStep(Some(h), requests, counted, Returned(()))
  }

  /** With the library's `TypeAttributeRouter`, whose `route` never throws, a work
      item reaches a handler iff its type value is registered, and that handler is
      the registered one; any other work item is counted as failed and nothing else
      happens. */
  lemma RoutedByTypeAttribute(router: TypeAttributeRouter, work: Work, handlerOutcome: Outcome<PostProcessAction>,
                              deleteTransport: Outcome<()>, delayTransport: Outcome<()>, counters: Counters)
    ensures var r := Process(Returned(Route(router, work.message)), work, handlerOutcome, deleteTransport, delayTransport, counters);
            var t := TypeValue(work.message, router.messageAttributeName);
            && (r.handler.Some? <==> t.Some? && t.value in router.processors)
            && (r.handler.Some? ==> r.handler.value == router.processors[t.value])
            && (r.handler.None? ==>
                  && r.outcome == Returned(())
                  && r.requests == []
                  && Count(r.counters, Failed(work.queueUrl)) == Count(counters, Failed(work.queueUrl)) + 1
                  && UnchangedExcept(counters, r.counters, {Failed(work.queueUrl)}))
  {
  }

  /** No processing ever makes both a delete and a delay call, and a delete or delay
      is addressed to the work item's own queue with its own receipt handle. */
  lemma ProcessTargetsOwnMessage(route: Outcome<Option<HandlerId>>, work: Work, handlerOutcome: Outcome<PostProcessAction>,
                                 deleteTransport: Outcome<()>, delayTransport: Outcome<()>, counters: Counters)
    ensures var r := Process(route, work, handlerOutcome, deleteTransport, delayTransport, counters);
            forall q :: q in r.requests ==>
              match q
              case DeleteMessage(d) => d.queueUrl == work.queueUrl && d.receiptHandle == work.message.receiptHandle
              case ChangeMessageVisibility(c) => c.queueUrl == work.queueUrl && c.receiptHandle == work.message.receiptHandle
              case Receive(_) => false
  {
  }
}

=== FILE: router.dfy ===
/** Choosing a handler by a message attribute (router/TypeAttributeRouter.kt). */
module Router {
  import opened Kotlin
  import opened Sqs

  /** The identity of a registered handler (`MessageProcessing`) object. */
  type HandlerId = nat

  const DefaultMessageTypeAttributeName: string := "daisy_message_type"

  datatype TypeAttributeRouter = TypeAttributeRouter(messageAttributeName: string, processors: map<string, HandlerId>)

  /** The router built without naming the attribute. */
  function WithDefaultAttribute(processors: map<string, HandlerId>): (r: TypeAttributeRouter)
    ensures r.messageAttributeName == "daisy_message_type" && r.processors == processors
  {
    TypeAttributeRouter(DefaultMessageTypeAttributeName, processors)
  }

  /** `message.messageAttributes()[name]?.stringValue()`: null when the attribute is
      missing and also when it has no string value. */
  function TypeValue(message: Message, name: string): Option<string>
  {
    if name in message.messageAttributes then message.messageAttributes[name].stringValue else None
  }

  /** `TypeAttributeRouter.route`: the handler registered for the message's type
      value, or null when the value is missing or not registered. */
  function Route(router: TypeAttributeRouter, message: Message): (h: Option<HandlerId>)
    ensures var t := TypeValue(message, router.messageAttributeName);
              && (h.Some? <==> t.Some? && t.value in router.processors)
              && (h.Some? ==> h.value == router.processors[t.value])
  {
    match TypeValue(message, router.messageAttributeName)
    case None => None
    case Some(t) => if t in router.processors then Some(router.processors[t]) else None
  }

  /** A router built with the default attribute name routes by the
      `daisy_message_type` string attribute: a message without it is never routed,
      one whose value is registered goes to that value's handler, and one whose
      value is not registered is not routed. */
  lemma DefaultRouterUsesMessageType(processors: map<string, HandlerId>, m: Message)
    ensures var h := Route(WithDefaultAttribute(processors), m);
            var t := TypeValue(m, "daisy_message_type");
            && (t.None? ==> h.None?)
            && (t.Some? && t.value in processors ==> h == Some(processors[t.value]))
            && (t.Some? && t.value !in processors ==> h.None?)
  {
  }

  /** Two messages with the same type value are routed alike, whatever their other
      attributes and bodies. */
  lemma RouteDependsOnlyOnTypeValue(router: TypeAttributeRouter, m1: Message, m2: Message)
    requires TypeValue(m1, router.messageAttributeName) == TypeValue(m2, router.messageAttributeName)
    ensures Route(router, m1) == Route(router, m2)
  {
  }

  /** Changing the body, the receipt handle or any other attribute does not change the route. */
  lemma RouteIgnoresOtherFields(router: TypeAttributeRouter, m: Message, name: string,
                                value: MessageAttributeValue, body: string, receiptHandle: string)
    requires name != router.messageAttributeName
    ensures Route(router, m.(body := body, receiptHandle := receiptHandle,
                             messageAttributes := m.messageAttributes[name := value])) == Route(router, m)
  {
    var m' := m.(body := body, receiptHandle := receiptHandle,
                 messageAttributes := m.messageAttributes[name := value]);
    assert TypeValue(m', router.messageAttributeName) == TypeValue(m, router.messageAttributeName);
  }
}

=== FILE: sqs.dfy ===
/** The parts of the SQS message and request types the engine reads or builds. */
module Sqs {
  import opened Kotlin

  /** A message attribute; only string-typed attributes carry a `stringValue`. */
  datatype MessageAttributeValue = MessageAttributeValue(dataType: string, stringValue: Option<string>)

  datatype Message = Message(
    messageId: string,
    receiptHandle: string,
    body: string,
    messageAttributes: map<string, MessageAttributeValue>)

  datatype ReceiveMessageRequest = ReceiveMessageRequest(
    queueUrl: string,
    attributeNames: seq<string>,
    messageAttributeNames: seq<string>,
    maxNumberOfMessages: int,
    waitTimeSeconds: int)

  datatype DeleteMessageRequest = DeleteMessageRequest(queueUrl: string, receiptHandle: string)

  datatype ChangeMessageVisibilityRequest = ChangeMessageVisibilityRequest(
    queueUrl: string,
    receiptHandle: string,
    visibilityTimeout: int)

  /** One call made on the transport client. */
  datatype Request =
    | Receive(receive: ReceiveMessageRequest)
    | DeleteMessage(delete: DeleteMessageRequest)
    | ChangeMessageVisibility(change: ChangeMessageVisibilityRequest)

  /** A message paired with the queue it was polled from (work/Work.kt). */
  datatype Work = Work(queueUrl: string, message: Message)
}

=== FILE: time.dfy ===
/** `java.time.Duration` and the conversions the engine performs on it. */
module Time {
  import opened Kotlin

  const NanosPerMilli: int := 1_000_000
  const NanosPerSecond: int := 1_000_000_000

  /** Division that rounds toward zero, as Java's `/` on `long`. */
  function TruncDiv(a: int, b: int): (q: int)
    requires b > 0
    ensures 0 <= a ==> q == a / b
    ensures a < 0 ==> q == -((-a) / b)
  {
    if 0 <= a then a / b else -((-a) / b)
  }

  /** A duration, held as its exact length in nanoseconds. Java stores the same value
      as a (seconds, nano-of-second) pair. Only lengths whose millisecond count fits
      in a `Long` are represented, so that `toMillis` never overflows. */
  type Duration = n: int | IsLong(TruncDiv(n, NanosPerMilli))

  const Zero: Duration := 0
  const OneHour: Duration := 3_600 * NanosPerSecond

  function OfMillis(ms: int): Duration
    requires IsLong(ms)
  {
    ms * NanosPerMilli
  }

  function OfSeconds(s: int): Duration
    requires IsLong(s * 1000)
  {
    s * NanosPerSecond
  }

  /** `Duration.toMillis()`: whole milliseconds, rounding toward zero. */
  function ToMillis(d: Duration): (ms: int)
    ensures IsLong(ms)
    ensures 0 <= d ==> 0 <= ms && ms * NanosPerMilli <= d < (ms + 1) * NanosPerMilli
    ensures d < 0 ==> ms <= 0 && (ms - 1) * NanosPerMilli < d <= ms * NanosPerMilli
  {
    TruncDiv(d, NanosPerMilli)
  }

  /** `Duration.toSeconds()`: the seconds field, which rounds toward negative infinity. */
  function ToSeconds(d: Duration): (s: int)
    ensures s * NanosPerSecond <= d < (s + 1) * NanosPerSecond
  {
    d / NanosPerSecond
  }

  /** `d.coerceAtMost(limit)` on comparable durations. */
  function CoerceAtMost(d: Duration, limit: Duration): (r: Duration)
    ensures r <= d && r <= limit
    ensures r == d || r == limit
  {
    if d > limit then limit else d
  }

  lemma ToMillisMonotonic(a: Duration, b: Duration)
    requires a <= b
    ensures ToMillis(a) <= ToMillis(b)
  {
  }
}
